=== FILE: README.md ===
# cyberblade RSS subscriptions, verified model

cyberblade is a Discord bot. Each Discord channel can subscribe to RSS or Atom
feeds. A background task polls every feed about every five minutes and posts a
message when the newest entry is newer than the feed's `last_checked`
watermark. This project models the bot's core in Dafny and proves properties
about the model:

- **The subscription store** (`app/services/feed.py`, `app/models/feed.py`).
  - The `Feed` table is the class `FeedService.FeedStore`. It holds a sequence of rows and a counter that assigns primary keys.
  - Its invariant says that every row has a key and a `last_checked`, that keys are unique, and that at most one row exists per (url, channel id).
  - `subscribe_feed`, `unsubscribe_feed` and `update_last_checked` are methods on that class.
  - `get_feeds_by_channel` and `get_all_channel_ids` are pure filters over the rows.
- **One poll cycle of `Bot.rss_task`** (`app/services/discord_bot.py`, lines 38-58).
  - The method `RssTask.RssSweep` runs the nested channel and feed loops against the store. It is proved equal to the specification function `RssTask.SweepSpec`.
  - The channel ids are a parameter of the cycle: any list that names each channel owning a row exactly once (`FeedService.ChannelList`), since the query fixes no order.
  - The lemmas in `RssTaskProofs` describe a cycle row by row: which rows it stamps, which messages it posts, what an exception cuts short, and when a second cycle stays quiet.
- **`process_twitter_urls`**.
  - The fixed pattern `https?://(?:twitter\.com|x\.com)/(\w+)/status/(\d+)` is modelled as a predicate on positions in the text.
  - `re.finditer` is modelled as a leftmost, non-overlapping scan.
  - The method `TwitterLinks.ProcessTwitterUrls` is a loop that appends to the two result lists, as the source does.
- **The `list_feed` reply**: the numbered Markdown list or "No feed found".
- **`HTTPService.fetch_feed`**: how a status code and a parse result become a `FetchFeedResponse`.

The feed parser, the HTTP client, Discord and the clock are not modelled. They
enter the model as parameters:

- `parse` maps a url to a `ParsedFeed`.
- `resolve` maps a channel id to what `fetch_channel` does.
- `deliver` says whether `channel.send` succeeds or raises.
- `now` is an `int` timestamp.

Python's f-string rendering of an `int` is `Decimal.IntToDecimal`.

## Model

| member | source | states |
|---|---|---|
| Decimal.NatToDecimal | app/services/discord_bot.py:210 | the spelling of a natural number is non-empty, all decimal digits, with no leading zero |
| Decimal.DecimalRoundTrip | app/services/discord_bot.py:210 | reading back the decimal spelling of `n` gives `n` |
| Decimal.IntToDecimal | app/services/feed.py:77 | `str(i)` starts with a minus sign exactly when `i` is negative |
| Decimal.IntToDecimalInjective | app/services/feed.py:77 | different integers have different spellings, so an error message names its id unambiguously |
| FeedModel.NewFeed | app/services/feed.py:28 | defines the record `subscribe_feed` builds: no key yet, the given title, url and channel, and `last_checked` defaulting to the creation time (models/feed.py:8-12); its use is stated by `FeedStore.Subscribe` |
| FeedService.AlreadyExists | app/services/feed.py:25 | defines the error text `{url} already exists`; `FeedStore.Subscribe` returns it exactly when the pair is already stored |
| FeedService.IdNotFound | app/services/feed.py:77 | defines the error text `Feed with id {id} not found`; `FeedStore.UpdateLastChecked` returns it exactly for an unknown id, and `Decimal.IntToDecimalInjective` shows it names the id unambiguously |
| FeedService.NotFoundForUnsubscribing | app/services/feed.py:89 | defines the error text `{url} not found for feed unsubscribing`; `FeedStore.Unsubscribe` returns it exactly when the pair is absent |
| FeedService.IndexOfPair | app/services/feed.py:21-23 | the lookup by (url, channel id) finds a row exactly when one exists, and the row found has that url and channel |
| FeedService.IndexOfId | app/services/feed.py:69-71 | the lookup by id finds a row exactly when a row has that key, and the row found has it |
| FeedService.FeedsByChannel | app/services/feed.py:42-46 | the result holds every row of the channel as many times as the table does, and no row of another channel; the model lists them in table order, one of the orders the query allows |
| FeedService.GetFeedsByChannel | app/services/feed.py:42-57 | without an OPML request, `opml` is "" and `feeds` holds exactly the rows of the channel |
| FeedService.ChannelList | app/services/feed.py:60-64 | defines what the distinct-channel query may return: every channel owning a row, once each, in any order; the cycle takes any such list |
| FeedService.GetAllChannelIds | app/services/feed.py:60-64 | one possible answer of the query: a channel id is listed exactly when some row belongs to it, and no id is listed twice |
| FeedService.Touched | app/services/feed.py:72-73 | defines the table after stamping the row keyed `feedId` with now; `FeedStore.UpdateLastChecked` is proved to produce it and `RssTaskProofs.PartialKeepsKeys` shows stamping keeps keys and pairs |
| FeedService.RemoveRow | app/services/feed.py:85 | deleting one row of a well-formed table keeps the table well formed, keeps the other rows in order, and leaves no row with the deleted pair |
| FeedModel.UniquePairs | app/models/feed.py:14 | defines the unique constraint `unique_item_url_channel_id`: no two rows share a (url, channel id) pair; part of `WellFormed`, kept by every store method |
| FeedModel.UniqueIds | app/models/feed.py:8 | defines the primary-key constraint: no two rows share a key; part of `WellFormed`, used by `IdIdentifiesRow` and `UpdateLastChecked` |
| FeedModel.WellFormed | app/models/feed.py:7-14 | defines the table invariant: every row is keyed and stamped, and both constraints hold; `PartialKeepsKeys`, `RemoveRow` and every cycle lemma keep or assume it |
| FeedService.FeedStore.Valid | app/models/feed.py:7-14 | defines the store invariant: the rows are `WellFormed` and every key is below the counter that assigns the next one, so a new key is unused; every store method requires and ensures it |
| FeedService.FeedStore.constructor | app/models/feed.py:7-14 | an empty table satisfies the table invariant, and the first key to be assigned is 1 |
| FeedService.FeedStore.Subscribe | app/services/feed.py:19-33 | succeeds exactly when the pair is new; then it appends one row (the given title, url and channel, a fresh key, `last_checked` = now) and returns that row; otherwise it returns "{url} already exists" and the table is unchanged; the invariant is kept |
| FeedService.FeedStore.Unsubscribe | app/services/feed.py:80-89 | succeeds exactly when the pair exists; then it deletes that one row and returns it, keeping the other rows in order; otherwise it returns "{url} not found for feed unsubscribing" and the table is unchanged; afterwards the pair is absent |
| FeedService.FeedStore.UpdateLastChecked | app/services/feed.py:67-77 | succeeds exactly when the id exists; the new table is the old one with only that row's `last_checked` set to now; otherwise it returns "Feed with id {id} not found" and the table is unchanged |
| FeedService.SubscribeTwice | app/services/feed.py:19-33 | starting from an empty store, subscribing twice to the same pair succeeds the first time, fails the second time with "already exists", and leaves one row in the table; `SubscribeTwiceIn` states it for any store |
| FeedService.SubscribeTwiceIn | app/services/feed.py:19-33 | in any valid store, two subscriptions to the same pair: the first adds a row exactly when the pair was free, the second fails with "already exists", and afterwards exactly one row holds the pair |
| HttpApi.FetchFeed | app/services/http_api.py:61-69 | for a non-200 status: error "HTTP {status} {reason}" and the default empty feed; for 200 with a non-empty parse result lacking a version: "Not a valid feed"; `error` is "" exactly when the status is 200 and the parse result is empty or has a version, and then `feed` is that parse result |
| HttpApi.HttpErrorNamesStatus | app/services/http_api.py:69 | two failed fetches with the same reason and the same error text had the same status |
| RssTask.Detect | app/services/discord_bot.py:45-54 | a result with no `version` key makes the attribute read raise; any other result that is empty or has an empty version is skipped; a valid feed with no entries is skipped; otherwise only the first entry counts, and it is new exactly when `last_checked` is absent or the entry's time (published, else updated, else now) is strictly greater |
| RssTask.SweepChannelFeeds | app/services/discord_bot.py:43-58 | the inner loop leaves the store and the messages as `SweepFeeds` says, keeps the store invariant, and assigns no key |
| RssTask.EntryTime | app/services/discord_bot.py:51-52 | defines the entry's time: published, else updated, else the cycle's clock; used by `Detect` |
| RssTask.Announcement | app/services/discord_bot.py:56 | defines the message `:newspaper2: [title](link)`, built only for an entry that has both a title and a link; its text for a concrete entry is `RssTaskProofs.ReleaseAnnouncementText` |
| RssTask.Raising | app/services/discord_bot.py:45-58 | defines when handling one feed raises: its parse result has no `version` key, or its first entry is new and has no title or link, or the send fails; `CheckFeed` aborts exactly then |
| ParsedFeeds.Entry.HasTitleAndLink | app/services/discord_bot.py:56 | an entry has both attributes the announcement reads; `RssTask.Raising` holds for a new first entry without them |
| ParsedFeeds.ParsedFeed.HasVersion | app/services/discord_bot.py:45 | defines a truthy `version`: the result is non-empty and has a non-empty version string; `Detect` and `HttpApi.FetchFeed` are stated in its terms |
| ParsedFeeds.ParsedFeed.LacksVersionKey | app/services/discord_bot.py:45 | defines a non-empty result without a `version` key, on which `feed.version` raises; `Detect` returns `Raises` exactly for it and `SweepAborts` shows it ends the cycle |
| RssTask.Advance | app/services/discord_bot.py:57 | defines `update_last_checked(_feed.id)` on the table: `Touched` for the row's key; `RssTaskProofs.CheckFeedStep` shows it stamps exactly that row |
| RssTaskProofs.Fires | app/services/discord_bot.py:49-56 | defines a row that fires: its first entry is new and carries a title and a link, so the announcement is posted; `CompletedSweepWatermarks`, `SweepMessages` and `QuietSweep` are stated in its terms |
| RssTaskProofs.RowRaises | app/services/discord_bot.py:45-57 | defines a row whose handling raises (`Raising` in its own channel); `CheckFeedStep`, `FirstRaising` and `SweepAborts` are stated in its terms |
| RssTask.CheckFeed | app/services/discord_bot.py:44-58 | one step of the inner loop ends the cycle exactly when `Raising` holds, and then changes nothing but the aborted flag; a feed whose first entry is not new changes neither the table nor the messages |
| RssTask.SweepFeeds | app/services/discord_bot.py:43-58 | defines the inner loop over a channel's rows, stopping at an exception; `RssTaskProofs.SweepFeedsOutcome` and `SweepFeedsReach` state what it does |
| RssTask.SweepChannels | app/services/discord_bot.py:39-58 | defines the outer loop, one `VisitChannel` per channel id, stopping at an exception; `RssTaskProofs.SweepChannelsReach`, `SweepChannelsCourse` and `AbortEndsCycle` state what it does |
| RssTask.VisitChannel | app/services/discord_bot.py:40-58 | defines the body of the outer loop: a failed lookup raises, an unresolved channel is skipped, a resolved one has its rows read from the current table and handled; `RssTaskProofs.AbortEndsCycle` and `LookupFailedEndsCycle` state what follows from it |
| RssTask.SweepSpec | app/services/discord_bot.py:38-58 | defines one cycle over a table and its channel list; `RssSweep` is proved equal to it; `SweepOutcome`, `SweepCourse`, `SweepAborts`, `SweepMessageOrder` and `AbortEndsCycle` state which rows it stamps, which messages it posts in which order, when an exception ends it and what that cuts short |
| RssTask.RssSweep | app/services/discord_bot.py:38-58 | given any channel list of the table, one cycle leaves the store, the posted messages and the aborted flag exactly as `SweepSpec` says, and keeps the store invariant |
| RssTaskProofs.PartialKeepsKeys | app/services/feed.py:72-74 | stamping `last_checked` on any set of rows keeps the table well formed and changes no key, url or channel |
| RssTaskProofs.CheckFeedStep | app/services/discord_bot.py:44-58 | handling one row raises exactly when `RowRaises` holds, and then handles nothing; otherwise the row is handled and, when it fires, it is stamped and its announcement is appended after all earlier ones |
| RssTaskProofs.SweepFeedsReach | app/services/discord_bot.py:43-58 | unless the cycle had already ended, the feed loop of a channel handles exactly the rows before the first one whose handling raises, keeping the per-row account of stamps and messages |
| RssTaskProofs.FirstRaising | app/services/discord_bot.py:43-58 | the position of the first row whose handling raises: no row before it raises, and the row at it does (or it is the end) |
| RssTaskProofs.FiringNotes | app/services/discord_bot.py:43-56 | the announcements of the rows of a list that fire, in the order of the list; `SweepFeedsClean` shows the feed loop posts exactly these |
| RssTaskProofs.CheckFeedSent | app/services/discord_bot.py:55-57 | handling a row that does not raise appends its announcement to the messages when it fires and nothing otherwise |
| RssTaskProofs.SweepFeedsOutcome | app/services/discord_bot.py:43-59 | the feed loop runs the rows before the first raising row, posts the announcements of those that fire in row order, and stops there: the rest of the channel changes nothing but the aborted flag |
| RssTaskProofs.SweepFeedsClean | app/services/discord_bot.py:43-57 | over rows none of which raises, the feed loop completes and posts the firing rows' announcements in row order |
| RssTaskProofs.SweepFeedsStops | app/services/discord_bot.py:43-59 | the feed loop over a channel equals the loop over the rows before the first raising one, with the aborted flag set exactly when such a row exists |
| RssTaskProofs.FeedsByChannelDistinct | app/services/feed.py:42-46 | the rows read for one channel contain no duplicates when the table has none |
| RssTaskProofs.SweepChannelsReach | app/services/discord_bot.py:39-58 | the channel loop handles only rows of resolved channels and, unless an exception ended it, every row of every resolved channel; `SweepChannelsCourse` states when it stops |
| RssTaskProofs.SweepChannelsCourse | app/services/discord_bot.py:39-59 | unless interrupted, the channel loop posts `ChannelNotes`: channel by channel in list order, each channel's firing rows in table order; it is interrupted only by a failed lookup or a raising row of a resolved channel |
| RssTaskProofs.ChannelNotes | app/services/discord_bot.py:38-58 | the messages of a cycle that nothing interrupts: for each resolved channel in list order, the `FiringNotes` of its rows in table order |
| RssTaskProofs.CourseStepNotes | app/services/discord_bot.py:39-58 | the messages of the first channel come before those of the rest of the list |
| RssTaskProofs.CourseStepCause | app/services/discord_bot.py:39-59 | an exception in the first channel or in the rest of the list has a cause among the whole list's channels and rows |
| RssTaskProofs.ChannelCourse | app/services/discord_bot.py:42-59 | a resolved channel's rows are read in table order; unless interrupted, their announcements are posted in that order; only one of them raising interrupts the loop |
| RssTaskProofs.ChannelStep | app/services/discord_bot.py:41-58 | handling a resolved channel handles only rows of that channel, and all of them unless an exception ended the loop |
| RssTaskProofs.SweepOutcome | app/services/discord_bot.py:38-58 | a cycle handled only rows of resolved channels (all of them if nothing raised), stamped exactly the handled rows that fired, and posted their announcements |
| RssTaskProofs.SweepCourse | app/services/discord_bot.py:38-59 | a cycle that no exception ended posted `ChannelNotes` in order; one that an exception ended had a failed lookup or a raising row of a resolved channel |
| RssTaskProofs.SweepChannelsSplit | app/services/discord_bot.py:39-58 | the outer loop over a list is the loop over its first `i` channels followed by the loop over the rest |
| RssTaskProofs.AbortEndsCycle | app/services/discord_bot.py:39-59 | when visiting a channel raises, the cycle's outcome is the state right after that channel: no later channel is visited and no later row is stamped or announced |
| RssTaskProofs.LookupFailedEndsCycle | app/services/discord_bot.py:40-59 | a channel whose lookup raises ends the cycle, wherever it comes in the list |
| RssTaskProofs.SweepAborts | app/services/discord_bot.py:38-59 | a cycle ends early exactly when a channel's lookup raises or a row of a resolved channel raises (no `version` key, a new entry without title or link, or a failed send); empty, unrecognised, entry-less and up-to-date feeds never end it |
| RssTaskProofs.SweepMessageOrder | app/services/discord_bot.py:38-58 | a cycle that no exception ended posts its announcements channel by channel in list order, and within a channel in table order |
| RssTaskProofs.SweepChangesOnlyAnnouncedRows | app/services/discord_bot.py:54-57 | after a cycle, each row is unchanged, or only its `last_checked` became now, its channel resolved, it fired, and its announcement was posted; this holds even when an exception ended the cycle |
| RssTaskProofs.CompletedSweepWatermarks | app/services/discord_bot.py:54-57 | a cycle that nothing interrupted stamps exactly the rows of resolved channels that fire, and no other row |
| RssTaskProofs.SweepMessages | app/services/discord_bot.py:56 | every message posted is the announcement of a firing row of a resolved channel, sent to that row's channel; if nothing raised, every such row's announcement is posted |
| RssTaskProofs.SweepMessageCount | app/services/discord_bot.py:54-56 | a cycle that nothing interrupted posts one message per firing row of a resolved channel |
| RssTaskProofs.UnresolvedChannelSkipped | app/services/discord_bot.py:40-41 | a channel that does not resolve receives no message and none of its rows change |
| RssTaskProofs.QuietSweep | app/services/discord_bot.py:54 | when no row of a resolved channel fires, a cycle posts nothing and changes nothing |
| RssTaskProofs.DatedNotAhead | app/services/discord_bot.py:49-52 | defines the condition of `SecondSweepIsQuiet`: the first entry the cycle would look at has `published_parsed` or `updated_parsed`, and that time is not after the clock |
| RssTaskProofs.SecondSweepIsQuiet | app/services/discord_bot.py:38-65 | after a cycle that nothing interrupted, the next cycle, run with the same parse results at any clock no earlier than the first one's (the source sleeps in between), posts nothing and changes nothing, whatever order it reads the channels in, provided every first entry carries a published or updated time that is not after the first cycle's clock; `UndatedEntryRefires` shows an undated entry is not quiet |
| RssTaskProofs.ChannelRowsUnhandled | app/services/discord_bot.py:42-43 | while none of a channel's rows has been handled, the rows read for it are its rows of the original table, in the same order, each once |
| RssTaskProofs.PartialChannelRows | app/services/discord_bot.py:42 | the rows read for a channel none of whose rows was handled are that channel's rows of the original table, in the same order |
| RssTaskProofs.FeedsByChannelAgree | app/services/feed.py:42-46 | two tables that agree on a channel's rows and on every row's channel give that channel the same rows |
| RssTaskProofs.OneRowFeeds | app/services/discord_bot.py:43-57 | the feed loop over a single firing row posts its announcement and stamps it |
| RssTaskProofs.UndatedEntryRefires | app/services/discord_bot.py:51-52 | a first entry with neither a published nor an updated time fires again in every later cycle whose clock has advanced |
| RssTaskProofs.AheadEntryRefires | app/services/discord_bot.py:52-54 | a first entry dated after the cycle's clock fires again in the next cycle, even with the same clock |
| RssTaskProofs.OneRowSweep | app/services/discord_bot.py:38-58 | a one-row table whose channel resolves and whose row fires: the cycle posts exactly that announcement and stamps the row with now |
| RssTaskProofs.ReleaseAnnouncementText | app/services/discord_bot.py:56 | the announcement of an entry titled "Release 2.0" and linked to https://example.com/r2 is `:newspaper2: [Release 2.0](https://example.com/r2)` |
| RssTaskProofs.ReleaseAnnounced | app/services/discord_bot.py:38-58 | a row checked on 2024-01-01 whose feed's first entry was published on 2024-01-02 gets one announcement, and its watermark becomes the cycle's clock |
| TwitterLinks.InClass | app/services/discord_bot.py:79 | defines `\w` as the ASCII letters, digits and underscore and `\d` as the ASCII digits; the match predicate `LinkAt` is built on it |
| TwitterLinks.LinkAt | app/services/discord_bot.py:79 | defines a match of the pattern at a position: the scheme, the host with its slash, a non-empty greedy run of `\w`, "/status/", and a non-empty greedy run of `\d`; `LinkUnique`, `MatchAt`, `FindIterSound` and `NoLinkNoUrls` are stated in its terms |
| TwitterLinks.User | app/services/discord_bot.py:84 | defines a match's first group, the user name; `UsersOf` and `ProcessTwitterUrls` are stated in its terms |
| TwitterLinks.TweetId | app/services/discord_bot.py:84 | defines a match's second group, the tweet id |
| TwitterLinks.FxUrl | app/services/discord_bot.py:85 | defines the rewritten link `https://fxtwitter.com/{user}/status/{tweet_id}`; `UrlsOf` and `ProcessTwitterUrls` are stated in its terms |
| TwitterLinks.WordsDiffer | app/services/discord_bot.py:79 | "http://" and "https://" cannot both start at the same position, nor can "twitter.com/" and "x.com/" |
| TwitterLinks.LinkUnique | app/services/discord_bot.py:79 | at most one match of the pattern starts at a given position, because the greedy groups end at fixed characters |
| TwitterLinks.LinkStartingAt | app/services/discord_bot.py:79 | the match starting at a position, if there is one; none exactly when no match starts there |
| TwitterLinks.RunIsExact | app/services/discord_bot.py:79 | the measured run of `\w` or `\d` characters is the greedy group's length |
| TwitterLinks.CandidateComplete | app/services/discord_bot.py:79 | any match starting at a position is the one built by reading the scheme, the host and the two greedy runs there |
| TwitterLinks.MatchAt | app/services/discord_bot.py:79 | the match attempt at one position returns exactly the match starting there, or none |
| TwitterLinks.Scan | app/services/discord_bot.py:83 | the scan yields table matches in text order, without overlap |
| TwitterLinks.ScanEmpty | app/services/discord_bot.py:83 | the scan from a position is empty exactly when no match starts at or after it |
| TwitterLinks.ScanLeftmost | app/services/discord_bot.py:83 | no match starts before the first yielded match, between two consecutive ones, or after the last one |
| TwitterLinks.FindIter | app/services/discord_bot.py:83 | defines the matches `re.finditer` yields: the leftmost scan over the table of matches by start position; `FindIterSound`, `ScanLeftmost` and `NoLinkNoUrls` state what it yields |
| TwitterLinks.FindIterSound | app/services/discord_bot.py:79-83 | each match `re.finditer` yields is an occurrence of the pattern, and they come in text order without overlap |
| TwitterLinks.UrlsOf | app/services/discord_bot.py:84-86 | one rewritten URL per match, in order, each `https://fxtwitter.com/{user}/status/{id}` |
| TwitterLinks.UsersOf | app/services/discord_bot.py:84-87 | one user name per match, in order |
| TwitterLinks.ProcessTwitterUrls | app/services/discord_bot.py:78-89 | both lists have one element per match, in text order; each url is `https://fxtwitter.com/{user}/status/{id}` and each user is that match's user group |
| TwitterLinks.NoLinkNoUrls | app/services/discord_bot.py:78-89 | the result is empty exactly when the pattern occurs nowhere in the text |
| TwitterLinks.SingleLink | app/services/discord_bot.py:78-89 | a text that is exactly one link yields that link alone |
| FeedListing.ListingLine | app/services/discord_bot.py:210 | defines line `i` of the listing, `{i}. [{title}]({url})`; `ListingNumbered` and `ListingLineNoNewline` state its shape |
| FeedListing.ListingLines | app/services/discord_bot.py:210 | defines the lines of the listing, numbered from 1 in the order of the feeds as `enumerate(feeds, 1)` gives; `ListingRoundTrip` recovers them from the reply |
| FeedListing.Join | app/services/discord_bot.py:210 | defines `"\n".join(lines)`; `SplitJoin` shows splitting on newlines undoes it |
| FeedListing.ListFeedReply | app/services/discord_bot.py:208-213 | the reply is "No feed found" exactly when the channel has no feeds |
| FeedListing.SplitJoin | app/services/discord_bot.py:210 | splitting `"\n".join(lines)` on newlines gives back the lines, when no line contains a newline |
| FeedListing.ListingLineNoNewline | app/services/discord_bot.py:210 | a listing line contains no newline when its title and url contain none |
| FeedListing.ListingNumbered | app/services/discord_bot.py:210 | line k (counting from 0) starts with a numeral that reads back as k + 1, followed by ". [" |
| FeedListing.ListingRoundTrip | app/services/discord_bot.py:210 | when no title or url contains a newline, the reply splits back into the numbered lines, one per feed, in order |
| FeedListing.ListFeed | app/services/discord_bot.py:207-213 | defines the reply for a channel: the listing of that channel's rows; `ListFeedEmpty` and `ListFeedLinesCount` state what it is |
| FeedListing.ListFeedEmpty | app/services/discord_bot.py:207-213 | a channel gets "No feed found" exactly when no row belongs to it |
| FeedListing.ListFeedLinesCount | app/services/discord_bot.py:207-210 | a channel with subscriptions, none of whose titles or urls holds a newline, gets one line per row of that channel (a newline in a title or url would add lines) |

## Left out

- The Discord client is not modelled: slash commands, `on_message`, `fetch_channel`, `channel.send` and the owner report in the exception handler are I/O. `resolve` and `deliver` stand in for their effect on one cycle.
- The `asyncio` task and its five-minute sleep are not modelled. Only one cycle is modelled, not the endless loop.
- Slash commands can run while the cycle awaits, for example an `/unsub` between the read of a channel's rows and `update_last_checked`. The model gives a cycle exclusive use of the store, so such interleavings are not modelled.
- `feedparser.parse` and the aiohttp session are foreign libraries. Parse results are abstract `ParsedFeed` values, and HTTP responses are a status, a reason and a body.
- The OPML export (`return_opml=True`) uses a foreign serialiser. Only the `opml == ""` case is modelled.
- The poem API, settings, database setup and `main.py` hold no logic of the core.
- Time is an `int`. A cycle reads the clock once, so detection and `update_last_checked` see the same `now`; the source reads `utcnow()` separately for each.
- The parsed time goes through `mktime` and `fromtimestamp`, which cancel the zone offset. They still shift a time by one hour in summer time: feedparser's parsed time has `tm_isdst=0`, and `mktime` then reads it as standard local time. The model takes the entry's time as an `int` and does not model this shift. `AheadEntryRefires` shows what happens to an entry that lies after the clock: the one-hour shift gives such an entry, and so does a feed that post-dates its entries.
- TwitterLinks.ProcessTwitterUrls: `\w` and `\d` are ASCII only; Python's Unicode classes, and the regex engine in general, are not modelled.
- The source counts on the database to pick a primary key; the model draws keys from a counter. Both give a key that no row uses.
- The unique constraint on (url, channel id) is an invariant of the store, not a rejected `commit`.
- A failed database call is not modelled; every store operation completes.
- An entry with neither a published nor an updated time takes the cycle's clock. Once announced, it fires again in every later cycle whose clock has advanced (`UndatedEntryRefires`).
- `get_all_channel_ids` has no ORDER BY, so the database returns the channels in no fixed order. A cycle takes the list as a parameter, constrained only by `ChannelList`. `GetAllChannelIds` is one such list, in order of first appearance. The order of messages across channels, and which channels run before an exception, depend on this list. The row-by-row lemmas hold for every list.
- A `parse` that raises is not modelled. The exceptions that come from the parse result are modelled, and each ends the cycle (`RssTaskProofs.SweepAborts`): no `version` key, and a new first entry without a `title` or a `link` attribute.
- `get_feeds_by_channel` has no ORDER BY either. The model lists a channel's rows in table order (`FeedService.FeedsByChannel`), one of the orders the database may return. Three things follow that order and are proved only for it: the order of the messages within a channel (`RssTaskProofs.SweepMessageOrder`), which rows of a channel are handled before one of them raises (`RssTaskProofs.SweepFeedsOutcome`), and the numbering of the `list_feed` reply (`FeedListing.ListingLines`).
- `fetch_feed`'s test `not feed or feed.get("version")` sends an empty parse result back as a feed with no error. The model follows the code (`HttpApi.FetchFeed`).

=== FILE: decimal.dfy ===
/**
 * Decimal text of integers, as Python's f-strings render an `int`
 * (used for "Feed with id {id} not found", "HTTP {status} ..." and the
 * numbered feed listing).
 */
module Decimal {

  predicate IsDigit(c: char) {
    '0' <= c <= '9'
  }

  predicate AllDigits(s: string) {
    forall k :: 0 <= k < |s| ==> IsDigit(s[k])
  }

  function DigitChar(d: nat): (c: char)
    requires d < 10
  {
    ('0' as int + d) as char
  }

  function DigitValue(c: char): nat
    requires IsDigit(c)
  {
    c as int - '0' as int
  }

  /** The shortest decimal spelling of `n`: digits only, no leading zero. */
  function NatToDecimal(n: nat): (s: string)
    ensures |s| >= 1 && AllDigits(s)
    ensures |s| > 1 ==> s[0] != '0'
    decreases n
  {
    if n < 10 then [DigitChar(n)] else NatToDecimal(n / 10) + [DigitChar(n % 10)]
  }

  /** The number a string of decimal digits denotes. */
  function DecimalValue(s: string): nat
    requires AllDigits(s)
  {
    if s == [] then 0 else DecimalValue(s[..|s| - 1]) * 10 + DigitValue(s[|s| - 1])
  }

  /** Reading back the spelling of `n` gives `n`. */
  lemma {:induction false} DecimalRoundTrip(n: nat)
    ensures DecimalValue(NatToDecimal(n)) == n
  {
    if n >= 10 {
      DecimalRoundTrip(n / 10);
      var s := NatToDecimal(n);
      assert s[..|s| - 1] == NatToDecimal(n / 10);
    }
  }

  /** `str(i)` for a Python int: a minus sign before the magnitude of a negative number. */
  function IntToDecimal(i: int): (s: string)
    ensures |s| >= 1
    ensures i < 0 <==> s[0] == '-'
  {
    if i < 0 then "-" + NatToDecimal(-i) else NatToDecimal(i)
  }

  /** Distinct integers are spelled differently, so a message carrying one names it exactly. */
  lemma IntToDecimalInjective(a: int, b: int)
    requires IntToDecimal(a) == IntToDecimal(b)
    ensures a == b
  {
    DecimalRoundTrip(if a < 0 then -a else a);
    DecimalRoundTrip(if b < 0 then -b else b);
    if a < 0 {
      assert IntToDecimal(a)[1..] == NatToDecimal(-a);
      assert IntToDecimal(b)[1..] == NatToDecimal(-b);
    }
  }
}

=== FILE: feed_listing.dfy ===
/**
 * The reply of the `/cyberblade feed list` command: the channel's feeds as
 * a numbered Markdown list, one feed per line, or "No feed found".
 */
module FeedListing {
  import opened Decimal
  import opened FeedModel
  import opened FeedService

  const NoFeedFound: string := "No feed found"

  /** Line `n` of the listing: `n. [title](url)`. */
  function ListingLine(n: nat, f: Feed): string {
    NatToDecimal(n) + ". [" + f.title + "](" + f.url + ")"
  }

  /** The lines of the listing, numbered from 1 in the order of `feeds`. */
  function ListingLines(feeds: seq<Feed>): seq<string> {
    seq(|feeds|, (k: int) requires 0 <= k < |feeds| => ListingLine(k + 1, feeds[k]))
  }

  predicate NoNewline(s: string) {
    forall k :: 0 <= k < |s| ==> s[k] != '\n'
  }

  /** `"\n".join(lines)`. */
  function Join(lines: seq<string>): string
    decreases |lines|
  {
    if |lines| == 0 then ""
    else if |lines| == 1 then lines[0]
    else Join(lines[..|lines| - 1]) + "\n" + lines[|lines| - 1]
  }

  /** `s.split("\n")`: the pieces between newlines, at least one. */
  function Split(s: string): (r: seq<string>)
    ensures |r| >= 1
    decreases |s|
  {
    if s == [] then [""]
    else
      var rest := Split(s[..|s| - 1]);
      var c := s[|s| - 1];
      if c == '\n' then rest + [""]
      else rest[..|rest| - 1] + [rest[|rest| - 1] + [c]]
  }

  /** What `list_feed` sends for the given feeds of a channel. */
  function ListFeedReply(feeds: seq<Feed>): (r: string)
    ensures feeds == [] <==> r == NoFeedFound
  {
    if feeds == [] then NoFeedFound
    else
      var r := Join(ListingLines(feeds));
      JoinStartsWithFirst(ListingLines(feeds));
      assert r[0] == NatToDecimal(1)[0];
      r
  }

  /** `list_feed` run in channel `channelId` against the table `rows`. */
  function ListFeed(rows: seq<Feed>, channelId: int): string {
    ListFeedReply(GetFeedsByChannel(rows, channelId).feeds)
  }

  /** A joined listing begins with its first line. */
  lemma {:induction false} JoinStartsWithFirst(lines: seq<string>)
    requires |lines| >= 1
    ensures |lines[0]| <= |Join(lines)| && Join(lines)[..|lines[0]|] == lines[0]
    decreases |lines|
  {
    if |lines| > 1 {
      var init := lines[..|lines| - 1];
      JoinStartsWithFirst(init);
      assert init[0] == lines[0];
    }
  }

  /** A string with no newline splits into itself alone. */
  lemma {:induction false} SplitNoNewline(s: string)
    requires NoNewline(s)
    ensures Split(s) == [s]
    decreases |s|
  {
    if s != [] {
      SplitNoNewline(s[..|s| - 1]);
      assert s[..|s| - 1] + [s[|s| - 1]] == s;
    }
  }

  /** Splitting `a + "\n" + b`, where `b` holds no newline, ends with the piece `b`. */
  lemma {:induction false} SplitAfterNewline(a: string, b: string)
    requires NoNewline(b)
    ensures Split(a + "\n" + b) == Split(a) + [b]
    decreases |b|
  {
    if b == [] {
      assert (a + "\n" + b)[..|a + "\n" + b| - 1] == a;
    } else {
      var init := b[..|b| - 1];
      SplitAfterNewline(a, init);
      var s := a + "\n" + b;
      assert s[..|s| - 1] == a + "\n" + init;
      assert init + [b[|b| - 1]] == b;
    }
  }

  /** `"\n".join` and `split("\n")` undo each other on lines without a newline. */
  lemma {:induction false} SplitJoin(lines: seq<string>)
    requires |lines| >= 1
    requires forall k :: 0 <= k < |lines| ==> NoNewline(lines[k])
    ensures Split(Join(lines)) == lines
    decreases |lines|
  {
    if |lines| == 1 {
      SplitNoNewline(lines[0]);
    } else {
      var init := lines[..|lines| - 1];
      SplitJoin(init);
      SplitAfterNewline(Join(init), lines[|lines| - 1]);
      assert init + [lines[|lines| - 1]] == lines;
    }
  }

  /** The decimal spelling of a number holds no newline. */
  lemma DecimalNoNewline(n: nat)
    ensures NoNewline(NatToDecimal(n))
  {
    var d := NatToDecimal(n);
    forall k | 0 <= k < |d|
      ensures d[k] != '\n'
    {
      assert IsDigit(d[k]);
    }
  }

  /** A line whose feed title and URL hold no newline holds none either. */
  lemma ListingLineNoNewline(n: nat, f: Feed)
    requires NoNewline(f.title) && NoNewline(f.url)
    ensures NoNewline(ListingLine(n, f))
  {
    DecimalNoNewline(n);
  }

  /**
   * Line `k` of the listing (counting from 0) opens with a numeral that
   * reads back as `k + 1`, followed by ". [".
   */
  lemma ListingNumbered(feeds: seq<Feed>, k: nat)
    requires k < |feeds|
    ensures var d := NatToDecimal(k + 1); var line := ListingLines(feeds)[k];
      && |d| + 3 <= |line| && AllDigits(line[..|d|])
      && DecimalValue(line[..|d|]) == k + 1 && line[|d|..|d| + 3] == ". ["
  {
    var d := NatToDecimal(k + 1);
    var line := ListingLines(feeds)[k];
    assert line == d + (". [" + feeds[k].title + "](" + feeds[k].url + ")");
    assert line[..|d|] == d;
    DecimalRoundTrip(k + 1);
  }

  /**
   * When no title or URL holds a newline, the reply splits back into the
   * listing's lines: one per feed, in order.
   */
  lemma ListingRoundTrip(feeds: seq<Feed>)
    requires feeds != []
    requires forall f :: f in feeds ==> NoNewline(f.title) && NoNewline(f.url)
    ensures Split(ListFeedReply(feeds)) == ListingLines(feeds)
    ensures |Split(ListFeedReply(feeds))| == |feeds|
  {
    var lines := ListingLines(feeds);
    forall k | 0 <= k < |lines|
      ensures NoNewline(lines[k])
    {
      assert feeds[k] in feeds;
      ListingLineNoNewline(k + 1, feeds[k]);
    }
    SplitJoin(lines);
  }

  /** The channel gets "No feed found" exactly when it has no subscription. */
  lemma ListFeedEmpty(rows: seq<Feed>, channelId: int)
    ensures ListFeed(rows, channelId) == NoFeedFound <==> !HasChannel(rows, channelId)
  {
    var feeds := GetFeedsByChannel(rows, channelId).feeds;
    if HasChannel(rows, channelId) {
      var k :| 0 <= k < |rows| && rows[k].channelId == channelId;
      assert rows[k] in feeds;
    }
  }

  /** A channel with subscriptions gets one line per row of that channel. */
  lemma ListFeedLinesCount(rows: seq<Feed>, channelId: int)
    requires HasChannel(rows, channelId)
    requires forall f :: f in rows ==> NoNewline(f.title) && NoNewline(f.url)
    ensures |Split(ListFeed(rows, channelId))| == |FeedsByChannel(rows, channelId)|
  {
    var feeds := FeedsByChannel(rows, channelId);
    ListFeedEmpty(rows, channelId);
    ListingRoundTrip(feeds);
  }
}

=== FILE: feed_model.dfy ===
/**
 * The `Feed` table row and the constraints the table declares on it:
 * a store-assigned primary key and at most one row per (url, channel id).
 */
module FeedModel {
  import opened Wrappers

  /**
   * One subscription. `id` is absent until the store assigns the primary key.
   * `lastChecked` is optional because the poll loop tests `not last_checked`,
   * although every row the service creates carries a creation time.
   */
  datatype Feed = Feed(id: Option<int>, title: string, url: string, channelId: int, lastChecked: Option<int>)

  /**
   * A record as the service builds it: title, url and channel id are
   * required, the key is unassigned and `last_checked` defaults to the
   * creation time.
   */
  function NewFeed(title: string, url: string, channelId: int, now: int): Feed {
    Feed(None, title, url, channelId, Some(now))
  }

  predicate SamePair(a: Feed, b: Feed) {
    a.url == b.url && a.channelId == b.channelId
  }

  predicate HasPair(rows: seq<Feed>, url: string, channelId: int) {
    exists k :: 0 <= k < |rows| && rows[k].url == url && rows[k].channelId == channelId
  }

  predicate HasChannel(rows: seq<Feed>, channelId: int) {
    exists k :: 0 <= k < |rows| && rows[k].channelId == channelId
  }

  predicate HasId(rows: seq<Feed>, id: int) {
    exists k :: 0 <= k < |rows| && rows[k].id == Some(id)
  }

  /** The unique constraint "unique_item_url_channel_id". */
  predicate UniquePairs(rows: seq<Feed>) {
    forall j, k :: 0 <= j < k < |rows| ==> !SamePair(rows[j], rows[k])
  }

  /** The primary-key constraint. */
  predicate UniqueIds(rows: seq<Feed>) {
    forall j, k :: 0 <= j < k < |rows| ==> rows[j].id != rows[k].id
  }

  /** A row as it sits in the table: keyed, and stamped with its creation or check time. */
  predicate Stored(f: Feed) {
    f.id.Some? && f.lastChecked.Some?
  }

  /** No row appears twice. */
  predicate Distinct(rows: seq<Feed>) {
    forall j, k :: 0 <= j < k < |rows| ==> rows[j] != rows[k]
  }

  predicate WellFormed(rows: seq<Feed>) {
    && (forall k :: 0 <= k < |rows| ==> Stored(rows[k]))
    && UniquePairs(rows)
    && UniqueIds(rows)
  }

  /** In a well-formed table an id identifies one row. */
  lemma IdIdentifiesRow(rows: seq<Feed>, j: nat, k: nat)
    requires WellFormed(rows)
    requires j < |rows| && k < |rows| && rows[j].id == rows[k].id
    ensures j == k
  {
  }
}

=== FILE: feed_service.dfy ===
/**
 * The subscription service: an in-memory model of the `Feed` table with the
 * service's five operations. Each database session becomes one method call;
 * `datetime.utcnow()` becomes the `now` parameter.
 */
module FeedService {
  import opened Wrappers
  import opened FeedModel
  import Decimal

  /** `FeedResult`: a success flag, the row involved, or an error message. */
  datatype FeedResult = FeedResult(success: bool, feed: Option<Feed>, error: Option<string>)

  /** `FeedsWithOpml`: the rows of one channel and, on request, their OPML export. */
  datatype FeedsWithOpml = FeedsWithOpml(feeds: seq<Feed>, opml: string)

  function AlreadyExists(url: string): string {
    url + " already exists"
  }

  function NotFoundForUnsubscribing(url: string): string {
    url + " not found for feed unsubscribing"
  }

  function IdNotFound(feedId: int): string {
    "Feed with id " + Decimal.IntToDecimal(feedId) + " not found"
  }

  /** The `select ... where url == url and channel_id == channel_id` lookup. */
  function IndexOfPair(rows: seq<Feed>, url: string, channelId: int): (r: Option<nat>)
    ensures r.Some? <==> HasPair(rows, url, channelId)
    ensures r.Some? ==> r.value < |rows| && rows[r.value].url == url && rows[r.value].channelId == channelId
  {
    if rows == [] then None
    else if rows[|rows| - 1].url == url && rows[|rows| - 1].channelId == channelId then Some(|rows| - 1)
    else
      var r := IndexOfPair(rows[..|rows| - 1], url, channelId);
      assert HasPair(rows, url, channelId) ==> HasPair(rows[..|rows| - 1], url, channelId) by {
        if HasPair(rows, url, channelId) {
          var k :| 0 <= k < |rows| && rows[k].url == url && rows[k].channelId == channelId;
          assert rows[..|rows| - 1][k].url == url;
        }
      }
      r
  }

  /** The `select ... where id == feed_id` lookup. */
  function IndexOfId(rows: seq<Feed>, feedId: int): (r: Option<nat>)
    ensures r.Some? <==> HasId(rows, feedId)
    ensures r.Some? ==> r.value < |rows| && rows[r.value].id == Some(feedId)
  {
    if rows == [] then None
    else if rows[|rows| - 1].id == Some(feedId) then Some(|rows| - 1)
    else
      var r := IndexOfId(rows[..|rows| - 1], feedId);
      assert HasId(rows, feedId) ==> HasId(rows[..|rows| - 1], feedId) by {
        if HasId(rows, feedId) {
          var k :| 0 <= k < |rows| && rows[k].id == Some(feedId);
          assert rows[..|rows| - 1][k].id == Some(feedId);
        }
      }
      r
  }

  /**
   * The rows of `get_feeds_by_channel`: each row of the channel exactly as
   * often as the table holds it, and no other row. The query fixes no order;
   * the model lists the rows in table order, one order it may return.
   */
  function FeedsByChannel(rows: seq<Feed>, channelId: int): (r: seq<Feed>)
    ensures forall f :: multiset(r)[f] == if f.channelId == channelId then multiset(rows)[f] else 0
    ensures forall f :: f in r <==> f in rows && f.channelId == channelId
  {
    if rows == [] then []
    else
      var last := rows[|rows| - 1];
      assert rows == rows[..|rows| - 1] + [last];
      FeedsByChannel(rows[..|rows| - 1], channelId) + (if last.channelId == channelId then [last] else [])
  }

  /** `get_feeds_by_channel(channel_id)` with `return_opml` left false. */
  function GetFeedsByChannel(rows: seq<Feed>, channelId: int): (r: FeedsWithOpml)
    ensures r.opml == ""
    ensures forall f :: f in r.feeds <==> f in rows && f.channelId == channelId
  {
    FeedsWithOpml(FeedsByChannel(rows, channelId), "")
  }

  /**
   * What `get_all_channel_ids` may return for the table `rows`: every
   * channel owning a row, once each. The query fixes no order.
   */
  ghost predicate ChannelList(rows: seq<Feed>, channels: seq<int>) {
    && (forall c :: c in channels <==> HasChannel(rows, c))
    && (forall j, k :: 0 <= j < k < |channels| ==> channels[j] != channels[k])
  }

  /**
   * `get_all_channel_ids`, with the channels in order of first appearance:
   * one of the answers the query may give.
   */
  function GetAllChannelIds(rows: seq<Feed>): (r: seq<int>)
    ensures ChannelList(rows, r)
  {
    if rows == [] then []
    else
      var init := rows[..|rows| - 1];
      var r := GetAllChannelIds(init);
      var c := rows[|rows| - 1].channelId;
      assert forall d :: HasChannel(rows, d) <==> HasChannel(init, d) || d == c by {
        forall d | HasChannel(rows, d)
          ensures HasChannel(init, d) || d == c
        {
          var k :| 0 <= k < |rows| && rows[k].channelId == d;
          if k < |init| {
            assert init[k].channelId == d;
          }
        }
      }
      if c in r then r else r + [c]
  }

  /** The table after `update_last_checked(feed_id)` stamps the row keyed `feed_id` with `now`. */
  function Touched(rows: seq<Feed>, feedId: int, now: int): seq<Feed> {
    seq(|rows|, k requires 0 <= k < |rows| =>
      if rows[k].id == Some(feedId) then rows[k].(lastChecked := Some(now)) else rows[k])
  }

  /**
   * Deleting row `k` of a well-formed table keeps it well formed, keeps the
   * other rows in order, and leaves no row with the deleted row's pair.
   */
  lemma RemoveRow(rows: seq<Feed>, k: nat)
    requires WellFormed(rows) && k < |rows|
    ensures var rest := rows[..k] + rows[k + 1..];
      && |rest| == |rows| - 1
      && (forall j :: 0 <= j < |rest| ==> rest[j] == if j < k then rows[j] else rows[j + 1])
      && WellFormed(rest)
      && !HasPair(rest, rows[k].url, rows[k].channelId)
  {
    var rest := rows[..k] + rows[k + 1..];
    assert forall j :: 0 <= j < |rest| ==> rest[j] == if j < k then rows[j] else rows[j + 1];
    forall j | 0 <= j < |rest| && rest[j].url == rows[k].url
      ensures rest[j].channelId != rows[k].channelId
    {
      if j < k {
        assert !SamePair(rows[j], rows[k]);
      } else {
        assert !SamePair(rows[k], rows[j + 1]);
      }
    }
  }

  /** The table, with the counter from which the store assigns primary keys. */
  class FeedStore {
    var rows: seq<Feed>
    var nextId: int

    /** The rows are well formed and every key lies below the next one to be assigned. */
    ghost predicate Valid()
      reads this
    {
      && WellFormed(rows)
      && 1 <= nextId
      && forall k :: 0 <= k < |rows| ==> rows[k].id.value < nextId
    }

    constructor ()
      ensures Valid() && rows == [] && nextId == 1
    {
      rows := [];
      nextId := 1;
    }

    /** `subscribe_feed`: add a row unless its (url, channel id) pair is already taken. */
    method Subscribe(title: string, url: string, channelId: int, now: int) returns (r: FeedResult)
      requires Valid()
      modifies this
      ensures Valid()
      ensures r.success <==> !HasPair(old(rows), url, channelId)
      ensures !r.success ==> r == FeedResult(false, None, Some(url + " already exists"))
      ensures !r.success ==> rows == old(rows) && nextId == old(nextId)
      ensures r.success ==> r.feed == Some(Feed(Some(old(nextId)), title, url, channelId, Some(now))) && r.error == None
      ensures r.success ==> rows == old(rows) + [r.feed.value] && nextId == old(nextId) + 1
    {
      if IndexOfPair(rows, url, channelId).Some? {
        return FeedResult(false, None, Some(AlreadyExists(url)));
      }
      var f := NewFeed(title, url, channelId, now).(id := Some(nextId));
      rows := rows + [f];
      nextId := nextId + 1;
      r := FeedResult(true, Some(f), None);
    }

    /** `unsubscribe_feed`: delete the row holding (url, channel id), or report it missing. */
    method Unsubscribe(url: string, channelId: int) returns (r: FeedResult)
      requires Valid()
      modifies this
      ensures Valid() && nextId == old(nextId)
      ensures r.success <==> HasPair(old(rows), url, channelId)
      ensures !r.success ==> r == FeedResult(false, None, Some(url + " not found for feed unsubscribing"))
      ensures !r.success ==> rows == old(rows)
      ensures r.success ==>
        var k := IndexOfPair(old(rows), url, channelId).value;
        r.feed == Some(old(rows)[k]) && r.error == None && rows == old(rows)[..k] + old(rows)[k + 1..]
      ensures !HasPair(rows, url, channelId)
    {
      var found := IndexOfPair(rows, url, channelId);
      if found.None? {
        return FeedResult(false, None, Some(NotFoundForUnsubscribing(url)));
      }
      var k := found.value;
      var f := rows[k];
      RemoveRow(rows, k);
      rows := rows[..k] + rows[k + 1..];
      r := FeedResult(true, Some(f), None);
    }

    /** `update_last_checked`: stamp the row keyed `feedId` with `now`, or report it missing. */
    method UpdateLastChecked(feedId: int, now: int) returns (r: FeedResult)
      requires Valid()
      modifies this
      ensures Valid() && nextId == old(nextId)
      ensures rows == Touched(old(rows), feedId, now)
      ensures r.success <==> HasId(old(rows), feedId)
      ensures !r.success ==> r == FeedResult(false, None, Some(IdNotFound(feedId))) && rows == old(rows)
      ensures r.success ==>
        var k := IndexOfId(old(rows), feedId).value;
        r.feed == Some(rows[k]) && r.error == None && rows[k] == old(rows)[k].(lastChecked := Some(now))
    {
      var found := IndexOfId(rows, feedId);
      if found.None? {
        assert rows == Touched(rows, feedId, now);
        return FeedResult(false, None, Some(IdNotFound(feedId)));
      }
      var k := found.value;
      ghost var before := rows;
      rows := rows[k := rows[k].(lastChecked := Some(now))];
      forall j | 0 <= j < |rows|
        ensures rows[j] == Touched(before, feedId, now)[j]
      {
        if j != k && before[j].id == Some(feedId) {
          IdIdentifiesRow(before, j, k);
        }
      }
      r := FeedResult(true, Some(rows[k]), None);
    }
  }

  /**
   * Subscribing twice to one (url, channel id) pair, starting from an empty
   * store: the second call fails with the "already exists" error and the
   * table keeps exactly one row. `SubscribeTwiceIn` states the same for any
   * store.
   */
  method SubscribeTwice(title: string, url: string, channelId: int, now: int)
    returns (first: FeedResult, second: FeedResult, count: nat)
    ensures first.success && first.feed.Some? && first.feed.value.url == url
    ensures second == FeedResult(false, None, Some(url + " already exists"))
    ensures count == 1
  {
    var store := new FeedStore();
    first := store.Subscribe(title, url, channelId, now);
    assert HasPair(store.rows, url, channelId) by {
      assert store.rows[0].url == url && store.rows[0].channelId == channelId;
    }
    second := store.Subscribe(title, url, channelId, now);
    count := |store.rows|;
  }

  /**
   * Subscribing twice to one (url, channel id) pair in any valid store: the
   * first call adds a row exactly when the pair was free, the second always
   * fails with the "already exists" error, and afterwards exactly one row
   * holds the pair.
   */
  method SubscribeTwiceIn(store: FeedStore, title: string, url: string, channelId: int, now: int)
    returns (first: FeedResult, second: FeedResult)
    requires store.Valid()
    modifies store
    ensures store.Valid()
    ensures first.success <==> !HasPair(old(store.rows), url, channelId)
    ensures second == FeedResult(false, None, Some(url + " already exists"))
    ensures first.success ==> first.feed.Some? && first.feed.value.url == url && first.feed.value.channelId == channelId
    ensures store.rows == old(store.rows) + (if first.success then [first.feed.value] else [])
    ensures exists k ::
              && 0 <= k < |store.rows| && store.rows[k].url == url && store.rows[k].channelId == channelId
              && (forall j :: 0 <= j < |store.rows| && store.rows[j].url == url && store.rows[j].channelId == channelId ==> j == k)
  {
    first := store.Subscribe(title, url, channelId, now);
    assert HasPair(store.rows, url, channelId) by {
      if first.success {
        assert store.rows[|store.rows| - 1].url == url && store.rows[|store.rows| - 1].channelId == channelId;
      }
    }
    second := store.Subscribe(title, url, channelId, now);
    var rows := store.rows;
    var k :| 0 <= k < |rows| && rows[k].url == url && rows[k].channelId == channelId;
    forall j | 0 <= j < |rows| && rows[j].url == url && rows[j].channelId == channelId
      ensures j == k
    {
      assert SamePair(rows[j], rows[k]);
    }
  }
}

=== FILE: http_api.dfy ===
/** `HTTPService.fetch_feed`: classifying an HTTP response as a feed or an error. */
module HttpApi {
  import opened ParsedFeeds
  import Decimal

  /** `FetchFeedResponse`: `feed` defaults to the empty result `{}`, `error` to "". */
  datatype FetchFeedResponse = FetchFeedResponse(feed: ParsedFeed, error: string)

  /**
   * The response for HTTP `status` and `reason` whose body is `body`;
   * `parse` stands for the feed parser and is applied only to a 200 body.
   */
  function FetchFeed(status: int, reason: string, body: string, parse: string -> ParsedFeed): (r: FetchFeedResponse)
    ensures status != 200 ==> r == FetchFeedResponse(Empty, "HTTP " + Decimal.IntToDecimal(status) + " " + reason)
    ensures status == 200 && !parse(body).Empty? && !parse(body).HasVersion() ==>
      r == FetchFeedResponse(Empty, "Not a valid feed")
    ensures r.error == "" <==> status == 200 && (parse(body).Empty? || parse(body).HasVersion())
    ensures r.error == "" ==> r.feed == parse(body)
    ensures r.error != "" ==> r.feed == Empty
  {
    if status == 200 then
      var feed := parse(body);
      if feed.Empty? || feed.HasVersion() then FetchFeedResponse(feed, "")
      else FetchFeedResponse(Empty, "Not a valid feed")
    else
      FetchFeedResponse(Empty, "HTTP " + Decimal.IntToDecimal(status) + " " + reason)
  }

  /** Two failing responses with different status codes and the same reason carry different errors. */
  lemma HttpErrorNamesStatus(s1: int, s2: int, reason: string, body: string, parse: string -> ParsedFeed)
    requires s1 != 200 && s2 != 200
    requires FetchFeed(s1, reason, body, parse).error == FetchFeed(s2, reason, body, parse).error
    ensures s1 == s2
  {
    var d1, d2 := Decimal.IntToDecimal(s1), Decimal.IntToDecimal(s2);
    var e := FetchFeed(s1, reason, body, parse).error;
    assert |d1| == |d2| by {
      assert e == "HTTP " + d1 + " " + reason;
      assert e == "HTTP " + d2 + " " + reason;
    }
    assert d1 == e[5..5 + |d1|] == d2;
    Decimal.IntToDecimalInjective(s1, s2);
  }
}

=== FILE: parsed_feed.dfy ===
/**
 * What the feed parser returns, reduced to the fields the bot reads.
 * The parser itself is not part of this model: callers receive its
 * results as values of these types.
 */
module ParsedFeeds {
  import opened Wrappers

  /**
   * One entry: its `title` and `link` keys and its parsed `published` /
   * `updated` times, each `None` when the entry lacks it.
   */
  datatype Entry = Entry(title: Option<string>, link: Option<string>, published: Option<int>, updated: Option<int>) {

    /** Reading the attributes `entry.title` and `entry.link` does not raise. */
    predicate HasTitleAndLink() {
      title.Some? && link.Some?
    }
  }

  /**
   * A parse result. `Empty` is the empty (falsy) result; otherwise a
   * `version` and the entries in document order. `version` is `None` when
   * the result has no `version` key at all (the parser could not fetch the
   * document) and `Some("")` when it recognised no feed format.
   */
  datatype ParsedFeed = Empty | Parsed(version: Option<string>, entries: seq<Entry>) {

    /** Python's `feed.version` (or `feed.get("version")`) is truthy. */
    predicate HasVersion() {
      Parsed? && version.Some? && version.value != ""
    }

    /** The result has no `version` key, so reading the attribute `feed.version` raises. */
    predicate LacksVersionKey() {
      Parsed? && version.None?
    }
  }
}

=== FILE: rss_task.dfy ===
/**
 * One cycle of `Bot.rss_task`: for every channel that owns a subscription,
 * resolve the channel, then for each of its feeds detect a new first entry,
 * announce it and advance the feed's `last_checked`.
 *
 * The chat platform is reduced to two collaborators: `resolve` says what
 * `fetch_channel` does for a channel id, and `deliver` says whether
 * `channel.send` succeeds. The parser is the function `parse` from url to
 * parse result, and the clock is the single reading `now`.
 */
module RssTask {
  import opened Wrappers
  import opened FeedModel
  import opened FeedService
  import opened ParsedFeeds

  /** The outcome of `fetch_channel`: a channel, a falsy value, or an exception. */
  datatype Resolution = Resolved | Unresolved | LookupFailed

  /** A message posted to a channel. */
  datatype Notification = Notification(channelId: int, content: string)

  /** What the detector concludes about one feed. */
  datatype Change = Raises | Invalid | NoEntries | UpToDate | NewItem(entry: Entry)

  /** The time of an entry: `published`, else `updated`, else the clock. */
  function EntryTime(e: Entry, now: int): int {
    e.published.GetOr(e.updated.GetOr(now))
  }

  /**
   * Change detection for one feed: a result without a `version` key makes
   * the attribute read raise, any other invalid parse result is skipped,
   * only the first entry is looked at, and it is new when the feed was never
   * checked or its time is strictly after the last check.
   */
  function Detect(p: ParsedFeed, lastChecked: Option<int>, now: int): (r: Change)
    ensures r == Raises <==> p.LacksVersionKey()
    ensures r == Invalid <==> !p.HasVersion() && !p.LacksVersionKey()
    ensures r == NoEntries <==> p.HasVersion() && p.entries == []
    ensures r.NewItem? <==>
      p.HasVersion() && p.entries != [] &&
      (lastChecked.None? || EntryTime(p.entries[0], now) > lastChecked.value)
    ensures r.NewItem? ==> r.entry == p.entries[0]
  {
    if p.LacksVersionKey() then Raises
    else if !p.HasVersion() then Invalid
    else if p.entries == [] then NoEntries
    else
      var e := p.entries[0];
      if lastChecked.None? || EntryTime(e, now) > lastChecked.value then NewItem(e) else UpToDate
  }

  /** The announcement posted for a new entry; building it reads the entry's title and link. */
  function Announcement(e: Entry): string
    requires e.HasTitleAndLink()
  {
    ":newspaper2: [" + e.title.value + "](" + e.link.value + ")"
  }

  /**
   * Handling feed `f` of channel `channelId`, whose parse result is `p`,
   * raises: the result has no `version` key, or the first entry is new and
   * its announcement cannot be built (no title or link) or sent.
   */
  predicate Raising(channelId: int, f: Feed, p: ParsedFeed, deliver: (int, string) -> bool, now: int) {
    match Detect(p, f.lastChecked, now)
    case Raises => true
    case NewItem(e) => !e.HasTitleAndLink() || !deliver(channelId, Announcement(e))
    case _ => false
  }

  /** The state of a cycle: the table, the messages posted so far, and whether an exception ended the cycle. */
  datatype Sweep = Sweep(rows: seq<Feed>, sent: seq<Notification>, aborted: bool)

  /** `update_last_checked(f.id)`; a row without a key matches nothing. */
  function Advance(rows: seq<Feed>, f: Feed, now: int): seq<Feed> {
    if f.id.Some? then Touched(rows, f.id.value, now) else rows
  }

  /**
   * The body of the inner loop for feed `f` of channel `channelId`, whose
   * parse result is `p`. The step raises exactly when `Raising` says so,
   * and then it changes nothing but the aborted flag.
   */
  function CheckFeed(st: Sweep, channelId: int, f: Feed, p: ParsedFeed,
                     deliver: (int, string) -> bool, now: int): (r: Sweep)
    ensures r.aborted <==> st.aborted || Raising(channelId, f, p, deliver, now)
    ensures Raising(channelId, f, p, deliver, now) ==> r == st.(aborted := true)
    ensures !Detect(p, f.lastChecked, now).NewItem? ==> r.rows == st.rows && r.sent == st.sent
  {
    match Detect(p, f.lastChecked, now)
    case NewItem(e) =>
      if !e.HasTitleAndLink() then st.(aborted := true)
      else
        var msg := Announcement(e);
        if deliver(channelId, msg) then
          Sweep(Advance(st.rows, f, now), st.sent + [Notification(channelId, msg)], st.aborted)
        else
          st.(aborted := true)
    case Raises => st.(aborted := true)
    case _ => st
  }

  /** The inner loop over the feeds read for one channel; an exception ends it. */
  function SweepFeeds(st: Sweep, channelId: int, feeds: seq<Feed>, parse: string -> ParsedFeed,
                      deliver: (int, string) -> bool, now: int): Sweep
    decreases |feeds|
  {
    if st.aborted || feeds == [] then st
    else
      SweepFeeds(CheckFeed(st, channelId, feeds[0], parse(feeds[0].url), deliver, now),
                 channelId, feeds[1..], parse, deliver, now)
  }

  /**
   * The outer loop over channel ids. A channel's feeds are read from the
   * table when the loop reaches it; an unresolved channel is skipped and a
   * failed lookup ends the cycle.
   */
  function SweepChannels(st: Sweep, channels: seq<int>, parse: string -> ParsedFeed,
                         resolve: int -> Resolution, deliver: (int, string) -> bool, now: int): Sweep
    decreases |channels|
  {
    if st.aborted || channels == [] then st
    else SweepChannels(VisitChannel(st, channels[0], parse, resolve, deliver, now), channels[1..],
                       parse, resolve, deliver, now)
  }

  /**
   * The body of the outer loop for channel `channelId`: a failed lookup
   * raises, an unresolved channel is skipped, and a resolved one has its
   * feeds read from the current table and handled.
   */
  function VisitChannel(st: Sweep, channelId: int, parse: string -> ParsedFeed,
                        resolve: int -> Resolution, deliver: (int, string) -> bool, now: int): Sweep
  {
    match resolve(channelId)
    case LookupFailed => st.(aborted := true)
    case Unresolved => st
    case Resolved => SweepFeeds(st, channelId, GetFeedsByChannel(st.rows, channelId).feeds, parse, deliver, now)
  }

  /**
   * One whole cycle over the table `rows`, whose channel ids were read once
   * at its start as `channels`.
   */
  function SweepSpec(rows: seq<Feed>, channels: seq<int>, parse: string -> ParsedFeed, resolve: int -> Resolution,
                     deliver: (int, string) -> bool, now: int): Sweep
  {
    SweepChannels(Sweep(rows, [], false), channels, parse, resolve, deliver, now)
  }

  /**
   * The inner loop of one cycle: check each feed read for the resolved
   * channel `channelId`, post an announcement for a new first entry and
   * then advance that feed's `last_checked`.
   */
  method SweepChannelFeeds(store: FeedStore, channelId: int, feeds: seq<Feed>, parse: string -> ParsedFeed,
                           deliver: (int, string) -> bool, now: int, sentBefore: seq<Notification>)
    returns (sent: seq<Notification>, aborted: bool)
    requires store.Valid()
    requires forall k :: 0 <= k < |feeds| ==> feeds[k].id.Some?
    modifies store
    ensures store.Valid() && store.nextId == old(store.nextId)
    ensures Sweep(store.rows, sent, aborted)
         == SweepFeeds(Sweep(old(store.rows), sentBefore, false), channelId, feeds, parse, deliver, now)
  {
    sent, aborted := sentBefore, false;
    var j := 0;
    while j < |feeds| && !aborted
      invariant 0 <= j <= |feeds|
      invariant store.Valid() && store.nextId == old(store.nextId)
      invariant SweepFeeds(Sweep(store.rows, sent, aborted), channelId, feeds[j..], parse, deliver, now)
             == SweepFeeds(Sweep(old(store.rows), sentBefore, false), channelId, feeds, parse, deliver, now)
    {
      var f := feeds[j];
      assert feeds[j..][1..] == feeds[j + 1..];
      var feed := parse(f.url);
      if feed.LacksVersionKey() {
        aborted := true;
      } else if feed.HasVersion() && feed.entries != [] {
        var entry := feed.entries[0];
        var published := EntryTime(entry, now);
        if f.lastChecked.None? || published > f.lastChecked.value {
          if !entry.HasTitleAndLink() {
            aborted := true;
          } else {
            var msg := Announcement(entry);
            if deliver(channelId, msg) {
              sent := sent + [Notification(channelId, msg)];
              var _ := store.UpdateLastChecked(f.id.value, now);
            } else {
              aborted := true;
            }
          }
        }
      }
      j := j + 1;
    }
  }

  /**
   * One cycle of the poll loop over `store`. `channelIds` is the answer of
   * `get_all_channel_ids` at the start of the cycle, in whatever order the
   * database gave it. Returns the messages posted, in order, and whether an
   * exception ended the cycle early (the loop then reports to the owner and
   * sleeps until the next cycle).
   */
  method RssSweep(store: FeedStore, channelIds: seq<int>, parse: string -> ParsedFeed, resolve: int -> Resolution,
                  deliver: (int, string) -> bool, now: int)
    returns (sent: seq<Notification>, aborted: bool)
    requires store.Valid() && ChannelList(store.rows, channelIds)
    modifies store
    ensures store.Valid() && store.nextId == old(store.nextId)
    ensures Sweep(store.rows, sent, aborted) == SweepSpec(old(store.rows), channelIds, parse, resolve, deliver, now)
  {
    sent, aborted := [], false;
    var i := 0;
    while i < |channelIds| && !aborted
      invariant 0 <= i <= |channelIds|
      invariant store.Valid() && store.nextId == old(store.nextId)
      invariant SweepChannels(Sweep(store.rows, sent, aborted), channelIds[i..], parse, resolve, deliver, now)
             == SweepSpec(old(store.rows), channelIds, parse, resolve, deliver, now)
    {
      var channelId := channelIds[i];
      assert channelIds[i..][1..] == channelIds[i + 1..];
      var channel := resolve(channelId);
      if channel == LookupFailed {
        aborted := true;
      } else if channel == Resolved {
        var feeds := GetFeedsByChannel(store.rows, channelId).feeds;
        forall k | 0 <= k < |feeds|
          ensures feeds[k].id.Some?
        {
          assert feeds[k] in store.rows;
        }
        sent, aborted := SweepChannelFeeds(store, channelId, feeds, parse, deliver, now, sent);
      }
      i := i + 1;
    }
  }
}

=== FILE: rss_task_proofs.dfy ===
/**
 * What one poll cycle does to the table and which messages it posts,
 * stated row by row, and what follows for a second cycle.
 */
module RssTaskProofs {
  import opened Wrappers
  import opened FeedModel
  import opened FeedService
  import opened ParsedFeeds
  import opened RssTask

  /**
   * Row `f`, looked at with the clock `now`, has a new first entry whose
   * announcement can be built: it is posted, unless the send fails.
   */
  predicate Fires(f: Feed, parse: string -> ParsedFeed, now: int) {
    var d := Detect(parse(f.url), f.lastChecked, now);
    d.NewItem? && d.entry.HasTitleAndLink()
  }

  /** Handling row `f` in its own channel raises. */
  predicate RowRaises(f: Feed, parse: string -> ParsedFeed, deliver: (int, string) -> bool, now: int) {
    Raising(f.channelId, f, parse(f.url), deliver, now)
  }

  /** Row `f` after its feed has been handled: stamped with `now` when it fired. */
  function Expected(f: Feed, parse: string -> ParsedFeed, now: int): Feed {
    if Fires(f, parse, now) then f.(lastChecked := Some(now)) else f
  }

  /** The announcement posted for a row that fires. */
  function NoteFor(f: Feed, parse: string -> ParsedFeed, now: int): Notification
    requires Fires(f, parse, now)
  {
    Notification(f.channelId, Announcement(Detect(parse(f.url), f.lastChecked, now).entry))
  }

  /** The table `rows0` once exactly the rows in `done` have been handled. */
  function Partial(rows0: seq<Feed>, done: set<Feed>, parse: string -> ParsedFeed, now: int): seq<Feed> {
    seq(|rows0|, k requires 0 <= k < |rows0| =>
      if rows0[k] in done then Expected(rows0[k], parse, now) else rows0[k])
  }

  /**
   * Cycle state `st` has handled the rows `done` of `rows0` and posted one
   * announcement for each of them that fired, in the order `fired`, each
   * row at most once. Handling a row in `done` did not raise.
   */
  ghost predicate Reached(rows0: seq<Feed>, st: Sweep, done: set<Feed>, fired: seq<Feed>,
                          parse: string -> ParsedFeed, deliver: (int, string) -> bool, now: int)
  {
    && st.rows == Partial(rows0, done, parse, now)
    && |st.sent| == |fired|
    && (forall k :: 0 <= k < |fired| ==>
          fired[k] in done && Fires(fired[k], parse, now) && st.sent[k] == NoteFor(fired[k], parse, now))
    && (forall f :: f in done && Fires(f, parse, now) ==> f in fired)
    && Distinct(fired)
    && (forall f :: f in done ==> !RowRaises(f, parse, deliver, now))
  }

  lemma PartialKeepsKeys(rows0: seq<Feed>, done: set<Feed>, parse: string -> ParsedFeed, now: int)
    requires WellFormed(rows0)
    ensures var rows := Partial(rows0, done, parse, now);
      |rows| == |rows0| && WellFormed(rows) &&
      forall k :: 0 <= k < |rows| ==> rows[k].id == rows0[k].id && SamePair(rows[k], rows0[k])
  {
  }

  /**
   * Handling one row of the table keeps the cycle state described by
   * `Reached`. The step raises exactly when `RowRaises` says so, and then
   * handles nothing; otherwise the row is handled and, when it fires, its
   * announcement comes after all earlier ones.
   */
  lemma CheckFeedStep(rows0: seq<Feed>, st: Sweep, done: set<Feed>, fired: seq<Feed>, f: Feed,
                      parse: string -> ParsedFeed, deliver: (int, string) -> bool, now: int)
    returns (done': set<Feed>, fired': seq<Feed>)
    requires WellFormed(rows0)
    requires !st.aborted && Reached(rows0, st, done, fired, parse, deliver, now)
    requires f in rows0 && f !in done
    ensures var st' := CheckFeed(st, f.channelId, f, parse(f.url), deliver, now);
      && Reached(rows0, st', done', fired', parse, deliver, now)
      && (st'.aborted <==> RowRaises(f, parse, deliver, now))
      && (st'.aborted ==> done' == done && fired' == fired)
      && (!st'.aborted ==> done' == done + {f} && fired' == fired + (if Fires(f, parse, now) then [f] else []))
  {
    var j :| 0 <= j < |rows0| && rows0[j] == f;
    var st' := CheckFeed(st, f.channelId, f, parse(f.url), deliver, now);
    if RowRaises(f, parse, deliver, now) {
      done', fired' := done, fired;
    } else if !Fires(f, parse, now) {
      done', fired' := done + {f}, fired;
      assert st'.rows == st.rows && st'.sent == st.sent;
      assert Partial(rows0, done', parse, now) == Partial(rows0, done, parse, now);
    } else {
      done', fired' := done + {f}, fired + [f];
      var id := f.id.value;
      assert st'.rows == Touched(st.rows, id, now);
      forall k | 0 <= k < |rows0|
        ensures Touched(st.rows, id, now)[k] == Partial(rows0, done', parse, now)[k]
      {
        if rows0[k].id == Some(id) {
          IdIdentifiesRow(rows0, j, k);
        } else {
          assert rows0[k] != f;
        }
      }
      assert st'.rows == Partial(rows0, done', parse, now);
      assert st'.sent == st.sent + [NoteFor(f, parse, now)];
    }
  }

  /** The position of the first of `feeds` whose handling raises, or `|feeds|` when none does. */
  function FirstRaising(feeds: seq<Feed>, parse: string -> ParsedFeed, deliver: (int, string) -> bool, now: int): (n: nat)
    ensures n <= |feeds|
    ensures forall k :: 0 <= k < n ==> !RowRaises(feeds[k], parse, deliver, now)
    ensures n < |feeds| ==> RowRaises(feeds[n], parse, deliver, now)
    decreases |feeds|
  {
    if feeds == [] || RowRaises(feeds[0], parse, deliver, now) then 0
    else
      var n := 1 + FirstRaising(feeds[1..], parse, deliver, now);
      assert forall k :: 1 <= k < n ==> feeds[k] == feeds[1..][k - 1];
      n
  }

  /** The announcements of the rows of `feeds` that fire, in row order. */
  function FiringNotes(feeds: seq<Feed>, parse: string -> ParsedFeed, now: int): seq<Notification>
    decreases |feeds|
  {
    if feeds == [] then []
    else (if Fires(feeds[0], parse, now) then [NoteFor(feeds[0], parse, now)] else [])
         + FiringNotes(feeds[1..], parse, now)
  }

  /** The first `n` rows of `feeds` are its first row followed by the first `n - 1` of the others. */
  lemma PrefixTail(feeds: seq<Feed>, n: nat)
    requires 1 <= n <= |feeds|
    ensures feeds[..n][0] == feeds[0] && feeds[..n][1..] == feeds[1..][..n - 1]
    ensures forall g :: g in feeds[..n] <==> g == feeds[0] || g in feeds[1..][..n - 1]
  {
    assert feeds[..n] == [feeds[0]] + feeds[1..][..n - 1];
  }

  /** A row whose handling does not raise posts its announcement when it fires, and nothing otherwise. */
  lemma CheckFeedSent(st: Sweep, f: Feed, parse: string -> ParsedFeed, deliver: (int, string) -> bool, now: int)
    requires !RowRaises(f, parse, deliver, now)
    ensures CheckFeed(st, f.channelId, f, parse(f.url), deliver, now).sent
         == st.sent + (if Fires(f, parse, now) then [NoteFor(f, parse, now)] else [])
  {
  }

  /**
   * The feed loop of a channel runs the rows before the first one whose
   * handling raises (all of them when none does), posting the announcements
   * of those that fire in row order, and stops there: the raising row and
   * the rows after it change nothing but the aborted flag.
   */
  lemma SweepFeedsOutcome(st: Sweep, channelId: int, feeds: seq<Feed>, parse: string -> ParsedFeed,
                          deliver: (int, string) -> bool, now: int)
    requires !st.aborted
    requires forall f :: f in feeds ==> f.channelId == channelId
    ensures var n := FirstRaising(feeds, parse, deliver, now);
      var before := SweepFeeds(st, channelId, feeds[..n], parse, deliver, now);
      && SweepFeeds(st, channelId, feeds, parse, deliver, now).aborted == (n < |feeds|)
      && !before.aborted
      && before.sent == st.sent + FiringNotes(feeds[..n], parse, now)
      && SweepFeeds(st, channelId, feeds, parse, deliver, now) == before.(aborted := n < |feeds|)
  {
    var n := FirstRaising(feeds, parse, deliver, now);
    SweepFeedsStops(st, channelId, feeds, parse, deliver, now);
    SweepFeedsClean(st, channelId, feeds[..n], parse, deliver, now);
  }

  /** The feed loop over rows none of which raises posts the announcements of those that fire, in row order. */
  lemma {:induction false} SweepFeedsClean(st: Sweep, channelId: int, feeds: seq<Feed>, parse: string -> ParsedFeed,
                                          deliver: (int, string) -> bool, now: int)
    requires !st.aborted
    requires forall f :: f in feeds ==> f.channelId == channelId
    requires forall k :: 0 <= k < |feeds| ==> !RowRaises(feeds[k], parse, deliver, now)
    ensures var r := SweepFeeds(st, channelId, feeds, parse, deliver, now);
      !r.aborted && r.sent == st.sent + FiringNotes(feeds, parse, now)
    decreases |feeds|
  {
    if feeds != [] {
      var f := feeds[0];
      assert f in feeds;
      var st1 := CheckFeed(st, channelId, f, parse(f.url), deliver, now);
      CheckFeedSent(st, f, parse, deliver, now);
      assert !st1.aborted;
      assert SweepFeeds(st, channelId, feeds, parse, deliver, now)
          == SweepFeeds(st1, channelId, feeds[1..], parse, deliver, now);
      assert FiringNotes(feeds, parse, now)
          == (if Fires(f, parse, now) then [NoteFor(f, parse, now)] else []) + FiringNotes(feeds[1..], parse, now);
      assert forall g :: g in feeds[1..] ==> g in feeds;
      assert forall k :: 0 <= k < |feeds| - 1 ==> feeds[1..][k] == feeds[k + 1];
      SweepFeedsClean(st1, channelId, feeds[1..], parse, deliver, now);
    }
  }

  /** The feed loop stops at the first row whose handling raises, changing nothing but the aborted flag from there on. */
  lemma {:induction false} SweepFeedsStops(st: Sweep, channelId: int, feeds: seq<Feed>, parse: string -> ParsedFeed,
                                          deliver: (int, string) -> bool, now: int)
    requires !st.aborted
    requires forall f :: f in feeds ==> f.channelId == channelId
    ensures var n := FirstRaising(feeds, parse, deliver, now);
      SweepFeeds(st, channelId, feeds, parse, deliver, now)
      == SweepFeeds(st, channelId, feeds[..n], parse, deliver, now).(aborted := n < |feeds|)
    decreases |feeds|
  {
    if feeds != [] {
      var f := feeds[0];
      assert f in feeds;
      var n := FirstRaising(feeds, parse, deliver, now);
      if RowRaises(f, parse, deliver, now) {
        assert n == 0 && feeds[..n] == [];
      } else {
        var st1 := CheckFeed(st, channelId, f, parse(f.url), deliver, now);
        assert forall g :: g in feeds[1..] ==> g in feeds;
        SweepFeedsStops(st1, channelId, feeds[1..], parse, deliver, now);
        assert n == 1 + FirstRaising(feeds[1..], parse, deliver, now);
        PrefixTail(feeds, n);
      }
    }
  }

  /**
   * The inner loop over a channel's rows keeps `Reached`. Unless the cycle
   * had already ended, it handles exactly the rows before the first one
   * whose handling raises: all of them when none does.
   */
  lemma {:induction false} SweepFeedsReach(rows0: seq<Feed>, st: Sweep, done: set<Feed>, fired: seq<Feed>,
                                          channelId: int, feeds: seq<Feed>, parse: string -> ParsedFeed,
                                          deliver: (int, string) -> bool, now: int)
    returns (done': set<Feed>, fired': seq<Feed>)
    requires WellFormed(rows0)
    requires Reached(rows0, st, done, fired, parse, deliver, now)
    requires forall f :: f in feeds ==> f in rows0 && f.channelId == channelId && f !in done
    requires Distinct(feeds)
    ensures var r := SweepFeeds(st, channelId, feeds, parse, deliver, now);
      var n := FirstRaising(feeds, parse, deliver, now);
      && Reached(rows0, r, done', fired', parse, deliver, now)
      && (st.aborted ==> done' == done)
      && (!st.aborted ==> forall f :: f in done' <==> f in done || f in feeds[..n])
    decreases |feeds|
  {
    if st.aborted || feeds == [] {
      done', fired' := done, fired;
    } else {
      var f := feeds[0];
      assert f in feeds;
      var n := FirstRaising(feeds, parse, deliver, now);
      var d1, fi1 := CheckFeedStep(rows0, st, done, fired, f, parse, deliver, now);
      var st1 := CheckFeed(st, channelId, f, parse(f.url), deliver, now);
      PrefixTail(feeds, |feeds|);
      assert forall g :: g in feeds[1..] ==> g != f;
      done', fired' := SweepFeedsReach(rows0, st1, d1, fi1, channelId, feeds[1..], parse, deliver, now);
      if RowRaises(f, parse, deliver, now) {
        assert n == 0 && feeds[..n] == [];
      } else {
        assert n == 1 + FirstRaising(feeds[1..], parse, deliver, now);
        PrefixTail(feeds, n);
      }
    }
  }

  /** Selecting one channel's rows keeps them distinct. */
  lemma {:induction false} FeedsByChannelDistinct(rows: seq<Feed>, channelId: int)
    requires Distinct(rows)
    ensures Distinct(FeedsByChannel(rows, channelId))
    decreases |rows|
  {
    if rows != [] {
      var init, last := rows[..|rows| - 1], rows[|rows| - 1];
      assert Distinct(init);
      FeedsByChannelDistinct(init, channelId);
      assert last !in init by {
        forall k | 0 <= k < |init| ensures init[k] != last {
          assert init[k] == rows[k];
        }
      }
    }
  }

  /** A sequence without repetitions has as many elements as its set. */
  lemma {:induction false} DistinctCount(s: seq<Feed>)
    requires Distinct(s)
    ensures |set f | f in s| == |s|
  {
    if s != [] {
      assert Distinct(s[1..]);
      DistinctCount(s[1..]);
      assert (set f | f in s) == (set f | f in s[1..]) + {s[0]};
      assert s[0] !in s[1..];
    }
  }

  /**
   * The announcements a cycle that no exception ended posts over the table
   * `rows`: channel by channel in the order of `channels`, and within a
   * resolved channel its firing rows in table order.
   */
  function ChannelNotes(rows: seq<Feed>, channels: seq<int>, parse: string -> ParsedFeed,
                        resolve: int -> Resolution, now: int): seq<Notification>
    decreases |channels|
  {
    if channels == [] then []
    else (if resolve(channels[0]) == Resolved then FiringNotes(FeedsByChannel(rows, channels[0]), parse, now) else [])
         + ChannelNotes(rows, channels[1..], parse, resolve, now)
  }

  /**
   * The outer loop keeps `Reached`, handles only rows of resolved channels
   * and, unless interrupted, every row of every resolved channel.
   */
  lemma {:induction false} SweepChannelsReach(rows0: seq<Feed>, st: Sweep, done: set<Feed>, fired: seq<Feed>,
                                             channels: seq<int>, parse: string -> ParsedFeed,
                                             resolve: int -> Resolution, deliver: (int, string) -> bool, now: int)
    returns (done': set<Feed>, fired': seq<Feed>)
    requires WellFormed(rows0)
    requires Reached(rows0, st, done, fired, parse, deliver, now)
    requires forall j, k :: 0 <= j < k < |channels| ==> channels[j] != channels[k]
    requires forall f :: f in done ==> f in rows0 && resolve(f.channelId) == Resolved && f.channelId !in channels
    requires !st.aborted ==>
      forall f :: f in rows0 && resolve(f.channelId) == Resolved && f.channelId !in channels ==> f in done
    ensures var r := SweepChannels(st, channels, parse, resolve, deliver, now);
      && Reached(rows0, r, done', fired', parse, deliver, now)
      && (forall f :: f in done' ==> f in rows0 && resolve(f.channelId) == Resolved)
      && (!r.aborted ==> forall f :: f in rows0 && resolve(f.channelId) == Resolved ==> f in done')
    decreases |channels|
  {
    if st.aborted || channels == [] {
      done', fired' := done, fired;
    } else {
      var ch, rest := channels[0], channels[1..];
      assert forall c :: c in rest ==> c in channels;
      assert ch !in rest by {
        forall k | 0 <= k < |rest| ensures rest[k] != ch {
          assert rest[k] == channels[k + 1];
        }
      }
      var st1 := VisitChannel(st, ch, parse, resolve, deliver, now);
      assert SweepChannels(st, channels, parse, resolve, deliver, now)
          == SweepChannels(st1, rest, parse, resolve, deliver, now);
      if resolve(ch) == Resolved {
        var d1, fi1 := ChannelStep(rows0, st, done, fired, ch, parse, deliver, now);
        done', fired' := SweepChannelsReach(rows0, st1, d1, fi1, rest, parse, resolve, deliver, now);
      } else {
        done', fired' := SweepChannelsReach(rows0, st1, done, fired, rest, parse, resolve, deliver, now);
      }
    }
  }

  /**
   * What can end a cycle over the table `rows0` and the channels `channels`
   * early: a channel whose lookup raises, or a row of a resolved channel
   * whose handling raises.
   */
  ghost predicate Interrupted(rows0: seq<Feed>, channels: seq<int>, parse: string -> ParsedFeed,
                              resolve: int -> Resolution, deliver: (int, string) -> bool, now: int)
  {
    || (exists c :: c in channels && resolve(c) == LookupFailed)
    || (exists f :: f in rows0 && resolve(f.channelId) == Resolved && RowRaises(f, parse, deliver, now))
  }

  /**
   * Unless interrupted, the outer loop posts `ChannelNotes` in order; it is
   * interrupted only by a failed lookup or by a row of a resolved channel
   * whose handling raises.
   */
  lemma {:induction false} SweepChannelsCourse(rows0: seq<Feed>, st: Sweep, done: set<Feed>, fired: seq<Feed>,
                                              channels: seq<int>, parse: string -> ParsedFeed,
                                              resolve: int -> Resolution, deliver: (int, string) -> bool, now: int)
    requires WellFormed(rows0)
    requires Reached(rows0, st, done, fired, parse, deliver, now)
    requires forall j, k :: 0 <= j < k < |channels| ==> channels[j] != channels[k]
    requires forall f :: f in done ==> f in rows0 && resolve(f.channelId) == Resolved && f.channelId !in channels
    ensures var r := SweepChannels(st, channels, parse, resolve, deliver, now);
      && (!r.aborted ==> r.sent == st.sent + ChannelNotes(rows0, channels, parse, resolve, now))
      && (r.aborted && !st.aborted ==> Interrupted(rows0, channels, parse, resolve, deliver, now))
    decreases |channels|
  {
    if !st.aborted && channels != [] {
      var ch, rest := channels[0], channels[1..];
      assert ch !in rest by {
        forall k | 0 <= k < |rest| ensures rest[k] != ch {
          assert rest[k] == channels[k + 1];
        }
      }
      var st1 := VisitChannel(st, ch, parse, resolve, deliver, now);
      if resolve(ch) == Resolved {
        var d1, fi1 := ChannelStep(rows0, st, done, fired, ch, parse, deliver, now);
        ChannelCourse(rows0, st, done, ch, parse, deliver, now);
        if !st1.aborted {
          SweepChannelsCourse(rows0, st1, d1, fi1, rest, parse, resolve, deliver, now);
        }
      } else if resolve(ch) == Unresolved {
        SweepChannelsCourse(rows0, st1, done, fired, rest, parse, resolve, deliver, now);
      }
      CourseStepNotes(rows0, st, channels, parse, resolve, deliver, now);
      CourseStepCause(rows0, st, channels, parse, resolve, deliver, now);
    }
  }

  /** One step of `SweepChannelsCourse` for the messages: those of the first channel come before those of the rest. */
  lemma CourseStepNotes(rows0: seq<Feed>, st: Sweep, channels: seq<int>, parse: string -> ParsedFeed,
                        resolve: int -> Resolution, deliver: (int, string) -> bool, now: int)
    requires !st.aborted && channels != []
    requires var ch := channels[0]; var st1 := VisitChannel(st, ch, parse, resolve, deliver, now);
      var r := SweepChannels(st1, channels[1..], parse, resolve, deliver, now);
      && (!st1.aborted ==>
            st1.sent == st.sent + (if resolve(ch) == Resolved then FiringNotes(FeedsByChannel(rows0, ch), parse, now) else []))
      && (!r.aborted ==> r.sent == st1.sent + ChannelNotes(rows0, channels[1..], parse, resolve, now))
    ensures var r := SweepChannels(st, channels, parse, resolve, deliver, now);
      !r.aborted ==> r.sent == st.sent + ChannelNotes(rows0, channels, parse, resolve, now)
  {
    var ch, rest := channels[0], channels[1..];
    var st1 := VisitChannel(st, ch, parse, resolve, deliver, now);
    assert SweepChannels(st, channels, parse, resolve, deliver, now)
        == SweepChannels(st1, rest, parse, resolve, deliver, now);
    if st1.aborted {
      assert SweepChannels(st1, rest, parse, resolve, deliver, now) == st1;
    } else {
      assert ChannelNotes(rows0, channels, parse, resolve, now)
          == (if resolve(ch) == Resolved then FiringNotes(FeedsByChannel(rows0, ch), parse, now) else [])
             + ChannelNotes(rows0, rest, parse, resolve, now);
    }
  }

  /** One step of `SweepChannelsCourse` for the cause: what interrupts the first channel or the rest interrupts the whole list. */
  lemma CourseStepCause(rows0: seq<Feed>, st: Sweep, channels: seq<int>, parse: string -> ParsedFeed,
                        resolve: int -> Resolution, deliver: (int, string) -> bool, now: int)
    requires !st.aborted && channels != []
    requires var ch := channels[0]; var st1 := VisitChannel(st, ch, parse, resolve, deliver, now);
      var r := SweepChannels(st1, channels[1..], parse, resolve, deliver, now);
      && (st1.aborted ==>
            resolve(ch) == LookupFailed || exists f :: f in rows0 && f.channelId == ch && RowRaises(f, parse, deliver, now))
      && (r.aborted && !st1.aborted ==> Interrupted(rows0, channels[1..], parse, resolve, deliver, now))
    ensures SweepChannels(st, channels, parse, resolve, deliver, now).aborted ==>
      Interrupted(rows0, channels, parse, resolve, deliver, now)
  {
    var ch, rest := channels[0], channels[1..];
    var st1 := VisitChannel(st, ch, parse, resolve, deliver, now);
    assert SweepChannels(st, channels, parse, resolve, deliver, now)
        == SweepChannels(st1, rest, parse, resolve, deliver, now);
    if st1.aborted {
      assert SweepChannels(st1, rest, parse, resolve, deliver, now) == st1;
      assert ch in channels;
      if resolve(ch) != LookupFailed {
        var f :| f in rows0 && f.channelId == ch && RowRaises(f, parse, deliver, now);
        assert resolve(f.channelId) == Resolved;
      }
    } else if SweepChannels(st1, rest, parse, resolve, deliver, now).aborted {
      assert forall c :: c in rest ==> c in channels;
    }
  }

  /**
   * One resolved channel: its rows are those of `rows0` in that channel,
   * none of them handled yet. The feed loop handles only those rows, and all
   * of them unless it is interrupted.
   */
  lemma ChannelStep(rows0: seq<Feed>, st: Sweep, done: set<Feed>, fired: seq<Feed>, ch: int,
                    parse: string -> ParsedFeed, deliver: (int, string) -> bool, now: int)
    returns (d1: set<Feed>, fi1: seq<Feed>)
    requires WellFormed(rows0)
    requires !st.aborted && Reached(rows0, st, done, fired, parse, deliver, now)
    requires forall f :: f in done ==> f.channelId != ch
    ensures var r := SweepFeeds(st, ch, GetFeedsByChannel(st.rows, ch).feeds, parse, deliver, now);
      && Reached(rows0, r, d1, fi1, parse, deliver, now)
      && done <= d1
      && (forall f :: f in d1 ==> f in done || (f in rows0 && f.channelId == ch))
      && (!r.aborted ==> forall f :: f in rows0 && f.channelId == ch ==> f in d1)
  {
    var feeds := GetFeedsByChannel(st.rows, ch).feeds;
    ChannelRowsUnhandled(rows0, done, parse, now, ch);
    d1, fi1 := SweepFeedsReach(rows0, st, done, fired, ch, feeds, parse, deliver, now);
    SweepFeedsOutcome(st, ch, feeds, parse, deliver, now);
    var n := FirstRaising(feeds, parse, deliver, now);
    forall f | f in d1
      ensures f in done || (f in rows0 && f.channelId == ch)
    {
      if f !in done {
        assert f in feeds[..n];
        assert f in feeds;
      }
    }
    if n == |feeds| {
      assert feeds[..n] == feeds;
      forall f | f in rows0 && f.channelId == ch
        ensures f in d1
      {
        assert f in feeds[..n];
      }
    }
  }

  /**
   * One resolved channel, before any of its rows is handled: the rows read
   * for it are its rows of `rows0` in table order. Unless interrupted, the
   * feed loop posts their announcements in that order; it is interrupted
   * only by one of them raising.
   */
  lemma ChannelCourse(rows0: seq<Feed>, st: Sweep, done: set<Feed>, ch: int,
                      parse: string -> ParsedFeed, deliver: (int, string) -> bool, now: int)
    requires WellFormed(rows0)
    requires !st.aborted && st.rows == Partial(rows0, done, parse, now)
    requires forall f :: f in done ==> f.channelId != ch
    ensures var feeds := GetFeedsByChannel(st.rows, ch).feeds;
      var r := SweepFeeds(st, ch, feeds, parse, deliver, now);
      && feeds == FeedsByChannel(rows0, ch)
      && (!r.aborted ==> r.sent == st.sent + FiringNotes(feeds, parse, now))
      && (r.aborted ==> exists f :: f in rows0 && f.channelId == ch && RowRaises(f, parse, deliver, now))
  {
    var feeds := GetFeedsByChannel(st.rows, ch).feeds;
    PartialChannelRows(rows0, done, parse, now, ch);
    assert feeds == FeedsByChannel(rows0, ch);
    SweepFeedsOutcome(st, ch, feeds, parse, deliver, now);
    var n := FirstRaising(feeds, parse, deliver, now);
    if n < |feeds| {
      var g := feeds[n];
      assert g in feeds;
      assert g in rows0 && g.channelId == ch && RowRaises(g, parse, deliver, now);
    } else {
      assert feeds[..n] == feeds;
    }
  }

  /**
   * When no row of channel `ch` has been handled, the rows read for `ch`
   * from the partly updated table are exactly the rows of `ch` in `rows0`,
   * in the same order, each once.
   */
  lemma ChannelRowsUnhandled(rows0: seq<Feed>, done: set<Feed>, parse: string -> ParsedFeed, now: int, ch: int)
    requires WellFormed(rows0)
    requires forall f :: f in done ==> f.channelId != ch
    ensures var feeds := FeedsByChannel(Partial(rows0, done, parse, now), ch);
      && feeds == FeedsByChannel(rows0, ch)
      && Distinct(feeds)
      && (forall g :: g in feeds ==> g in rows0 && g.channelId == ch && g !in done)
      && (forall f :: f in rows0 && f.channelId == ch ==> f in feeds)
  {
    PartialChannelRows(rows0, done, parse, now, ch);
    FeedsByChannelDistinct(rows0, ch);
  }

  /** When no row of channel `ch` has been handled, the partly updated table gives `ch` the rows of `rows0`. */
  lemma PartialChannelRows(rows0: seq<Feed>, done: set<Feed>, parse: string -> ParsedFeed, now: int, ch: int)
    requires forall f :: f in done ==> f.channelId != ch
    ensures FeedsByChannel(Partial(rows0, done, parse, now), ch) == FeedsByChannel(rows0, ch)
  {
    var rows := Partial(rows0, done, parse, now);
    forall k | 0 <= k < |rows0|
      ensures rows[k].channelId == rows0[k].channelId
      ensures rows0[k].channelId == ch ==> rows[k] == rows0[k]
    {
    }
    FeedsByChannelAgree(rows, rows0, ch);
  }

  /**
   * Two tables of the same length whose rows lie in the same channels, and
   * agree on the rows of channel `ch`, give the same rows for `ch`.
   */
  lemma {:induction false} FeedsByChannelAgree(rows: seq<Feed>, rows0: seq<Feed>, ch: int)
    requires |rows| == |rows0|
    requires forall k :: 0 <= k < |rows| ==> rows[k].channelId == rows0[k].channelId
    requires forall k :: 0 <= k < |rows| && rows0[k].channelId == ch ==> rows[k] == rows0[k]
    ensures FeedsByChannel(rows, ch) == FeedsByChannel(rows0, ch)
    decreases |rows|
  {
    if rows != [] {
      var m := |rows| - 1;
      FeedsByChannelAgree(rows[..m], rows0[..m], ch);
    }
  }

  /**
   * A whole cycle, described by the rows it handled: `done` holds only rows
   * of resolved channels (all of them when no exception ended the cycle),
   * each handled row is stamped with `now` exactly when it fired, and the
   * messages posted are the announcements of the handled rows that fired.
   */
  lemma SweepOutcome(rows: seq<Feed>, channels: seq<int>, parse: string -> ParsedFeed, resolve: int -> Resolution,
                     deliver: (int, string) -> bool, now: int)
    returns (done: set<Feed>, fired: seq<Feed>)
    requires WellFormed(rows) && ChannelList(rows, channels)
    ensures var r := SweepSpec(rows, channels, parse, resolve, deliver, now);
      && Reached(rows, r, done, fired, parse, deliver, now)
      && (forall f :: f in done ==> f in rows && resolve(f.channelId) == Resolved)
      && (!r.aborted ==> forall f :: f in rows && resolve(f.channelId) == Resolved ==> f in done)
  {
    assert Partial(rows, {}, parse, now) == rows;
    forall f | f in rows
      ensures f.channelId in channels
    {
      var k :| 0 <= k < |rows| && rows[k] == f;
      assert HasChannel(rows, f.channelId);
    }
    done, fired := SweepChannelsReach(rows, Sweep(rows, [], false), {}, [], channels,
                                      parse, resolve, deliver, now);
  }

  /**
   * A whole cycle, described by its course: when no exception ended it, it
   * posted `ChannelNotes` in order; when one did, a channel's lookup or a
   * row of a resolved channel raised.
   */
  lemma SweepCourse(rows: seq<Feed>, channels: seq<int>, parse: string -> ParsedFeed, resolve: int -> Resolution,
                    deliver: (int, string) -> bool, now: int)
    requires WellFormed(rows) && ChannelList(rows, channels)
    ensures var r := SweepSpec(rows, channels, parse, resolve, deliver, now);
      && (!r.aborted ==> r.sent == ChannelNotes(rows, channels, parse, resolve, now))
      && (r.aborted ==> Interrupted(rows, channels, parse, resolve, deliver, now))
  {
    assert Partial(rows, {}, parse, now) == rows;
    SweepChannelsCourse(rows, Sweep(rows, [], false), {}, [], channels, parse, resolve, deliver, now);
  }

  /** Running the outer loop over `channels` is running it over the first `i` of them, then over the rest. */
  lemma {:induction false} SweepChannelsSplit(st: Sweep, channels: seq<int>, parse: string -> ParsedFeed,
                                             resolve: int -> Resolution, deliver: (int, string) -> bool, now: int, i: nat)
    requires i <= |channels|
    ensures SweepChannels(st, channels, parse, resolve, deliver, now)
         == SweepChannels(SweepChannels(st, channels[..i], parse, resolve, deliver, now), channels[i..],
                          parse, resolve, deliver, now)
    decreases i
  {
    if i == 0 {
      assert channels[..0] == [] && channels[0..] == channels;
    } else if !st.aborted {
      var next := VisitChannel(st, channels[0], parse, resolve, deliver, now);
      SweepChannelsSplit(next, channels[1..], parse, resolve, deliver, now, i - 1);
      assert channels[..i][1..] == channels[1..][..i - 1];
      assert channels[1..][i - 1..] == channels[i..];
    }
  }

  /**
   * When visiting channel `i` raises (its lookup fails, or handling one of
   * its rows raises), the cycle ends there: its outcome is the state right
   * after that channel, so no later channel is visited and no later row is
   * stamped or announced.
   */
  lemma AbortEndsCycle(st: Sweep, channels: seq<int>, parse: string -> ParsedFeed,
                       resolve: int -> Resolution, deliver: (int, string) -> bool, now: int, i: nat)
    requires i < |channels|
    requires VisitChannel(SweepChannels(st, channels[..i], parse, resolve, deliver, now), channels[i],
                          parse, resolve, deliver, now).aborted
    ensures SweepChannels(st, channels, parse, resolve, deliver, now)
         == VisitChannel(SweepChannels(st, channels[..i], parse, resolve, deliver, now), channels[i],
                         parse, resolve, deliver, now)
  {
    SweepChannelsSplit(st, channels, parse, resolve, deliver, now, i);
    assert channels[i..][0] == channels[i] && channels[i..][1..] == channels[i + 1..];
  }

  /** A channel whose lookup raises ends the cycle, wherever it comes in the list. */
  lemma LookupFailedEndsCycle(st: Sweep, channels: seq<int>, parse: string -> ParsedFeed,
                              resolve: int -> Resolution, deliver: (int, string) -> bool, now: int, c: int)
    requires c in channels && resolve(c) == LookupFailed
    ensures SweepChannels(st, channels, parse, resolve, deliver, now).aborted
  {
    var i :| 0 <= i < |channels| && channels[i] == c;
    AbortEndsCycle(st, channels, parse, resolve, deliver, now, i);
  }

  /**
   * A cycle ends early exactly when the lookup of one of its channels
   * raises, or handling a row of a resolved channel raises: the parse result
   * has no `version` key, or the new first entry has no title or link, or
   * the send fails. An empty or unrecognised result, a feed without entries
   * and a row that is up to date never end it.
   */
  lemma SweepAborts(rows: seq<Feed>, channels: seq<int>, parse: string -> ParsedFeed, resolve: int -> Resolution,
                    deliver: (int, string) -> bool, now: int)
    requires WellFormed(rows) && ChannelList(rows, channels)
    ensures SweepSpec(rows, channels, parse, resolve, deliver, now).aborted <==>
      || (exists c :: c in channels && resolve(c) == LookupFailed)
      || (exists f :: f in rows && resolve(f.channelId) == Resolved && RowRaises(f, parse, deliver, now))
  {
    var done, fired := SweepOutcome(rows, channels, parse, resolve, deliver, now);
    SweepCourse(rows, channels, parse, resolve, deliver, now);
    if c :| c in channels && resolve(c) == LookupFailed {
      LookupFailedEndsCycle(Sweep(rows, [], false), channels, parse, resolve, deliver, now, c);
    }
  }

  /**
   * A cycle that no exception ended posts its announcements channel by
   * channel in the order of the list, and within a channel in table order.
   */
  lemma SweepMessageOrder(rows: seq<Feed>, channels: seq<int>, parse: string -> ParsedFeed, resolve: int -> Resolution,
                          deliver: (int, string) -> bool, now: int)
    requires WellFormed(rows) && ChannelList(rows, channels)
    requires !SweepSpec(rows, channels, parse, resolve, deliver, now).aborted
    ensures SweepSpec(rows, channels, parse, resolve, deliver, now).sent == ChannelNotes(rows, channels, parse, resolve, now)
  {
    SweepCourse(rows, channels, parse, resolve, deliver, now);
  }

  /**
   * Each row after a cycle is either untouched, or its channel resolved, its
   * feed had a new first entry, that entry's announcement was posted, and
   * only its `last_checked` changed, to `now`. This holds also when an
   * exception ended the cycle: a row is never stamped without its message.
   */
  lemma SweepChangesOnlyAnnouncedRows(rows: seq<Feed>, channels: seq<int>, parse: string -> ParsedFeed, resolve: int -> Resolution,
                                      deliver: (int, string) -> bool, now: int)
    requires WellFormed(rows) && ChannelList(rows, channels)
    ensures var r := SweepSpec(rows, channels, parse, resolve, deliver, now);
      && |r.rows| == |rows|
      && forall k :: 0 <= k < |rows| ==>
           || r.rows[k] == rows[k]
           || (&& r.rows[k] == rows[k].(lastChecked := Some(now))
               && resolve(rows[k].channelId) == Resolved
               && Fires(rows[k], parse, now)
               && NoteFor(rows[k], parse, now) in r.sent)
  {
    var r := SweepSpec(rows, channels, parse, resolve, deliver, now);
    var done, fired := SweepOutcome(rows, channels, parse, resolve, deliver, now);
    forall k | 0 <= k < |rows| && rows[k] in done && Fires(rows[k], parse, now)
      ensures NoteFor(rows[k], parse, now) in r.sent
    {
      var i :| 0 <= i < |fired| && fired[i] == rows[k];
      assert r.sent[i] == NoteFor(rows[k], parse, now);
    }
  }

  /**
   * A cycle that no exception ended stamps with `now` exactly the rows of
   * resolved channels whose feed has a new first entry, and no other row.
   */
  lemma CompletedSweepWatermarks(rows: seq<Feed>, channels: seq<int>, parse: string -> ParsedFeed, resolve: int -> Resolution,
                                 deliver: (int, string) -> bool, now: int)
    requires WellFormed(rows) && ChannelList(rows, channels)
    requires !SweepSpec(rows, channels, parse, resolve, deliver, now).aborted
    ensures var r := SweepSpec(rows, channels, parse, resolve, deliver, now);
      && |r.rows| == |rows|
      && forall k :: 0 <= k < |rows| ==>
           r.rows[k] == if resolve(rows[k].channelId) == Resolved && Fires(rows[k], parse, now)
                        then rows[k].(lastChecked := Some(now)) else rows[k]
  {
    var done, fired := SweepOutcome(rows, channels, parse, resolve, deliver, now);
    assert forall k :: 0 <= k < |rows| ==> rows[k] in rows;
  }

  /** `n` is the announcement of a row of `rows` in a resolved channel whose feed has a new first entry. */
  ghost predicate IsAnnouncement(rows: seq<Feed>, n: Notification, parse: string -> ParsedFeed,
                                 resolve: int -> Resolution, now: int)
  {
    exists f :: f in rows && resolve(f.channelId) == Resolved && Fires(f, parse, now) && n == NoteFor(f, parse, now)
  }

  /**
   * The messages of a cycle: each is the announcement of a row of a resolved
   * channel whose feed has a new first entry, posted to that row's channel;
   * when no exception ended the cycle, every such row's announcement is posted.
   */
  lemma SweepMessages(rows: seq<Feed>, channels: seq<int>, parse: string -> ParsedFeed, resolve: int -> Resolution,
                      deliver: (int, string) -> bool, now: int)
    requires WellFormed(rows) && ChannelList(rows, channels)
    ensures var r := SweepSpec(rows, channels, parse, resolve, deliver, now);
      forall i :: 0 <= i < |r.sent| ==> IsAnnouncement(rows, r.sent[i], parse, resolve, now)
    ensures var r := SweepSpec(rows, channels, parse, resolve, deliver, now);
      !r.aborted ==>
        forall f :: f in rows && resolve(f.channelId) == Resolved && Fires(f, parse, now) ==> NoteFor(f, parse, now) in r.sent
  {
    var r := SweepSpec(rows, channels, parse, resolve, deliver, now);
    var done, fired := SweepOutcome(rows, channels, parse, resolve, deliver, now);
    forall i | 0 <= i < |r.sent|
      ensures IsAnnouncement(rows, r.sent[i], parse, resolve, now)
    {
      var f := fired[i];
      assert f in done;
      assert f in rows && resolve(f.channelId) == Resolved && Fires(f, parse, now) && r.sent[i] == NoteFor(f, parse, now);
    }
    forall f | !r.aborted && f in rows && resolve(f.channelId) == Resolved && Fires(f, parse, now)
      ensures NoteFor(f, parse, now) in r.sent
    {
      var i :| 0 <= i < |fired| && fired[i] == f;
      assert r.sent[i] == NoteFor(f, parse, now);
    }
  }

  /** The rows of resolved channels whose feed has a new first entry. */
  function Announced(rows: seq<Feed>, parse: string -> ParsedFeed, resolve: int -> Resolution, now: int): set<Feed> {
    set f | f in rows && resolve(f.channelId) == Resolved && Fires(f, parse, now)
  }

  /** A cycle that no exception ended posts exactly one message per such row. */
  lemma SweepMessageCount(rows: seq<Feed>, channels: seq<int>, parse: string -> ParsedFeed, resolve: int -> Resolution,
                          deliver: (int, string) -> bool, now: int)
    requires WellFormed(rows) && ChannelList(rows, channels)
    requires !SweepSpec(rows, channels, parse, resolve, deliver, now).aborted
    ensures |SweepSpec(rows, channels, parse, resolve, deliver, now).sent| == |Announced(rows, parse, resolve, now)|
  {
    var done, fired := SweepOutcome(rows, channels, parse, resolve, deliver, now);
    assert (set f | f in fired) == Announced(rows, parse, resolve, now);
    DistinctCount(fired);
  }

  /** A channel that does not resolve gets no message and its rows stay as they were. */
  lemma UnresolvedChannelSkipped(rows: seq<Feed>, channels: seq<int>, parse: string -> ParsedFeed, resolve: int -> Resolution,
                                 deliver: (int, string) -> bool, now: int, channelId: int)
    requires WellFormed(rows) && ChannelList(rows, channels)
    requires resolve(channelId) != Resolved
    ensures var r := SweepSpec(rows, channels, parse, resolve, deliver, now);
      && |r.rows| == |rows|
      && (forall k :: 0 <= k < |rows| && rows[k].channelId == channelId ==> r.rows[k] == rows[k])
      && (forall i :: 0 <= i < |r.sent| ==> r.sent[i].channelId != channelId)
  {
    SweepChangesOnlyAnnouncedRows(rows, channels, parse, resolve, deliver, now);
    SweepMessages(rows, channels, parse, resolve, deliver, now);
  }

  /**
   * The first entry of `p`, if the cycle would look at one, carries a
   * `published` or an `updated` time, and that time is not after `now`.
   */
  predicate DatedNotAhead(p: ParsedFeed, now: int) {
    p.HasVersion() && p.entries != [] ==>
      (p.entries[0].published.Some? || p.entries[0].updated.Some?) && EntryTime(p.entries[0], now) <= now
  }

  /** A table where no row of a resolved channel has a new first entry: a cycle posts nothing and changes nothing. */
  lemma QuietSweep(rows: seq<Feed>, channels: seq<int>, parse: string -> ParsedFeed, resolve: int -> Resolution,
                   deliver: (int, string) -> bool, now: int)
    requires WellFormed(rows) && ChannelList(rows, channels)
    requires forall k :: 0 <= k < |rows| && resolve(rows[k].channelId) == Resolved ==> !Fires(rows[k], parse, now)
    ensures var r := SweepSpec(rows, channels, parse, resolve, deliver, now);
      r.rows == rows && r.sent == []
  {
    var done, fired := SweepOutcome(rows, channels, parse, resolve, deliver, now);
    forall f | f in done
      ensures !Fires(f, parse, now)
    {
      var k :| 0 <= k < |rows| && rows[k] == f;
    }
    assert Partial(rows, done, parse, now) == rows;
    assert (set f | f in fired) == {};
    DistinctCount(fired);
  }

  /**
   * The next cycle, run with the same parse results at a clock `later` no
   * earlier than the first cycle's, after a first cycle that no exception
   * ended, posts nothing and changes nothing, provided every first entry is
   * dated and not dated after the first cycle's clock. The second cycle may
   * read the channel ids in another order (`channels2`).
   */
  lemma SecondSweepIsQuiet(rows: seq<Feed>, channels: seq<int>, parse: string -> ParsedFeed, resolve: int -> Resolution,
                           deliver: (int, string) -> bool, now: int, channels2: seq<int>, later: int)
    requires WellFormed(rows) && ChannelList(rows, channels)
    requires !SweepSpec(rows, channels, parse, resolve, deliver, now).aborted
    requires ChannelList(SweepSpec(rows, channels, parse, resolve, deliver, now).rows, channels2)
    requires forall k :: 0 <= k < |rows| ==> DatedNotAhead(parse(rows[k].url), now)
    requires now <= later
    ensures var r1 := SweepSpec(rows, channels, parse, resolve, deliver, now);
      var r2 := SweepSpec(r1.rows, channels2, parse, resolve, deliver, later);
      r2.rows == r1.rows && r2.sent == []
  {
    var r1 := SweepSpec(rows, channels, parse, resolve, deliver, now);
    CompletedSweepWatermarks(rows, channels, parse, resolve, deliver, now);
    var done1, fired1 := SweepOutcome(rows, channels, parse, resolve, deliver, now);
    PartialKeepsKeys(rows, done1, parse, now);
    forall k | 0 <= k < |r1.rows| && resolve(r1.rows[k].channelId) == Resolved
      ensures !Fires(r1.rows[k], parse, later)
    {
      var p := parse(rows[k].url);
      assert DatedNotAhead(p, now);
      if p.HasVersion() && p.entries != [] {
        assert EntryTime(p.entries[0], later) == EntryTime(p.entries[0], now);
      }
    }
    QuietSweep(r1.rows, channels2, parse, resolve, deliver, later);
  }

  /**
   * An entry with neither a published nor an updated time takes the clock's
   * time, so after a cycle announces it, every later cycle with a later
   * clock finds it new again.
   */
  lemma UndatedEntryRefires(rows: seq<Feed>, channels: seq<int>, parse: string -> ParsedFeed, resolve: int -> Resolution,
                            deliver: (int, string) -> bool, now: int, later: int, k: nat)
    requires WellFormed(rows) && ChannelList(rows, channels)
    requires !SweepSpec(rows, channels, parse, resolve, deliver, now).aborted
    requires k < |rows| && resolve(rows[k].channelId) == Resolved
    requires var p := parse(rows[k].url);
      p.HasVersion() && p.entries != [] && p.entries[0].published.None? && p.entries[0].updated.None?
    requires Fires(rows[k], parse, now) && now < later
    ensures var r := SweepSpec(rows, channels, parse, resolve, deliver, now);
      |r.rows| == |rows| && Fires(r.rows[k], parse, later)
  {
    CompletedSweepWatermarks(rows, channels, parse, resolve, deliver, now);
  }

  /**
   * An entry dated after the clock (as with the one-hour shift a summer-time
   * zone gives a parsed time, or a feed that post-dates its entries) is found
   * new again by the next cycle, even with the same clock.
   */
  lemma AheadEntryRefires(rows: seq<Feed>, channels: seq<int>, parse: string -> ParsedFeed, resolve: int -> Resolution,
                          deliver: (int, string) -> bool, now: int, k: nat)
    requires WellFormed(rows) && ChannelList(rows, channels)
    requires !SweepSpec(rows, channels, parse, resolve, deliver, now).aborted
    requires k < |rows| && resolve(rows[k].channelId) == Resolved
    requires var p := parse(rows[k].url);
      p.HasVersion() && p.entries != [] && EntryTime(p.entries[0], now) > now
    requires Fires(rows[k], parse, now)
    ensures var r := SweepSpec(rows, channels, parse, resolve, deliver, now);
      |r.rows| == |rows| && Fires(r.rows[k], parse, now)
  {
    CompletedSweepWatermarks(rows, channels, parse, resolve, deliver, now);
  }

  /**
   * A table of one row whose channel resolves and whose feed has a new first
   * entry: the cycle posts that entry's announcement and stamps the row.
   */
  lemma OneRowSweep(f: Feed, parse: string -> ParsedFeed, resolve: int -> Resolution,
                    deliver: (int, string) -> bool, now: int)
    requires Stored(f) && resolve(f.channelId) == Resolved && Fires(f, parse, now)
    requires deliver(f.channelId, NoteFor(f, parse, now).content)
    ensures SweepSpec([f], [f.channelId], parse, resolve, deliver, now)
         == Sweep([f.(lastChecked := Some(now))], [NoteFor(f, parse, now)], false)
  {
    var rows := [f];
    var st := Sweep([f.(lastChecked := Some(now))], [NoteFor(f, parse, now)], false);
    OneRowFeeds(f, parse, deliver, now);
    assert [f.channelId][1..] == [];
    assert SweepChannels(Sweep(rows, [], false), [f.channelId], parse, resolve, deliver, now)
        == SweepChannels(st, [], parse, resolve, deliver, now);
  }

  /** The feed loop of `OneRowSweep`: the one row is announced and stamped. */
  lemma OneRowFeeds(f: Feed, parse: string -> ParsedFeed, deliver: (int, string) -> bool, now: int)
    requires Stored(f) && Fires(f, parse, now)
    requires deliver(f.channelId, NoteFor(f, parse, now).content)
    ensures GetFeedsByChannel([f], f.channelId).feeds == [f]
    ensures SweepFeeds(Sweep([f], [], false), f.channelId, [f], parse, deliver, now)
         == Sweep([f.(lastChecked := Some(now))], [NoteFor(f, parse, now)], false)
  {
    var rows := [f];
    assert rows[..0] == [];
    assert FeedsByChannel(rows, f.channelId) == [f];
    var st := Sweep([f.(lastChecked := Some(now))], [NoteFor(f, parse, now)], false);
    assert Touched(rows, f.id.value, now) == st.rows;
    assert CheckFeed(Sweep(rows, [], false), f.channelId, f, parse(f.url), deliver, now) == st;
    assert [f][1..] == [];
  }

  lemma ReleaseAnnouncementText(e: Entry)
    requires e.title == Some("Release 2.0") && e.link == Some("https://example.com/r2")
    ensures Announcement(e) == ":newspaper2: [Release 2.0](https://example.com/r2)"
  {
  }

  /**
   * A subscription checked at 2024-01-01T00:00Z whose feed's first entry,
   * "Release 2.0", was published at 2024-01-02T00:00Z: the next cycle posts
   * one announcement with its title and link and stamps the row with the
   * cycle's clock.
   */
  method ReleaseAnnounced() returns (sent: seq<Notification>, aborted: bool, checked: Option<int>)
    ensures !aborted
    ensures sent == [Notification(42, ":newspaper2: [Release 2.0](https://example.com/r2)")]
    ensures checked == Some(1704160000)
  {
    var store := new FeedStore();
    var sub := store.Subscribe("Example releases", "https://example.com/feed.xml", 42, 1704067200);
    var entry := Entry(Some("Release 2.0"), Some("https://example.com/r2"), Some(1704153600), None);
    var parse := (u: string) => Parsed(Some("rss20"), [entry]);
    var resolve := (c: int) => Resolved;
    var deliver := (c: int, m: string) => true;
    var f := store.rows[0];
    assert store.rows == [f] && f.channelId == 42;
    assert Detect(parse(f.url), f.lastChecked, 1704160000) == NewItem(entry);
    assert NoteFor(f, parse, 1704160000) == Notification(42, Announcement(entry));
    OneRowSweep(f, parse, resolve, deliver, 1704160000);
    assert ChannelList(store.rows, [42]) by {
      assert HasChannel(store.rows, 42) by { assert store.rows[0].channelId == 42; }
    }
    sent, aborted := RssSweep(store, [42], parse, resolve, deliver, 1704160000);
    checked := store.rows[0].lastChecked;
    ReleaseAnnouncementText(entry);
  }
}

=== FILE: twitter_links.dfy ===
/**
 * `process_twitter_urls`: finding the tweet links
 * `http[s]://(twitter.com|x.com)/<user>/status/<digits>` in a message, left
 * to right and without overlap, and rewriting each to its fxtwitter.com form.
 * `\w` is taken as the ASCII letters, digits and underscore, `\d` as the
 * ASCII digits.
 */
module TwitterLinks {
  import opened Wrappers

  datatype CharClass = Word | Digit

  /** `\w` and `\d`. */
  predicate InClass(cls: CharClass, c: char) {
    match cls
    case Word => ('a' <= c <= 'z') || ('A' <= c <= 'Z') || ('0' <= c <= '9') || c == '_'
    case Digit => '0' <= c <= '9'
  }

  datatype Host = Twitter | X

  /**
   * One match, by position: it starts at `start`, the user group ends at
   * `userEnd`, "/status/" follows, and the id group ends at `end`.
   */
  datatype Link = Link(start: nat, secure: bool, host: Host, userEnd: nat, end: nat)

  function Scheme(secure: bool): string {
    if secure then "https://" else "http://"
  }

  /** The host with the slash after it. */
  function HostWord(h: Host): string {
    match h
    case Twitter => "twitter.com/"
    case X => "x.com/"
  }

  function UserStart(l: Link): nat {
    l.start + |Scheme(l.secure)| + |HostWord(l.host)|
  }

  function IdStart(l: Link): nat {
    l.userEnd + 8
  }

  /** The groups of `l` are non-empty and end within the first `n` characters. */
  predicate InSpan(l: Link, n: nat) {
    UserStart(l) < l.userEnd && IdStart(l) < l.end <= n
  }

  /** `w` is spelled in `text` from position `i` on. */
  predicate StartsWith(text: string, i: nat, w: string) {
    i + |w| <= |text| && forall j {:trigger w[j]} :: 0 <= j < |w| ==> text[i + j] == w[j]
  }

  /** Every character in `[a, b)` belongs to `cls`. */
  predicate AllIn(text: string, a: nat, b: nat, cls: CharClass)
    requires b <= |text|
  {
    forall j {:trigger InClass(cls, text[j])} :: a <= j < b ==> InClass(cls, text[j])
  }

  /**
   * `l` is a match of the pattern in `text`: scheme, host and slash, a
   * non-empty run of word characters, "/status/", and a non-empty run of
   * digits that no further digit follows.
   */
  predicate LinkAt(text: string, l: Link) {
    && StartsWith(text, l.start, Scheme(l.secure))
    && StartsWith(text, l.start + |Scheme(l.secure)|, HostWord(l.host))
    && InSpan(l, |text|)
    && AllIn(text, UserStart(l), l.userEnd, Word)
    && StartsWith(text, l.userEnd, "/status/")
    && AllIn(text, IdStart(l), l.end, Digit)
    && (l.end == |text| || !InClass(Digit, text[l.end]))
  }

  /** The first group of a match. */
  function User(text: string, l: Link): string
    requires InSpan(l, |text|)
  {
    text[UserStart(l)..l.userEnd]
  }

  /** The second group of a match. */
  function TweetId(text: string, l: Link): string
    requires InSpan(l, |text|)
  {
    text[IdStart(l)..l.end]
  }

  /** The rewritten link `https://fxtwitter.com/<user>/status/<id>`. */
  function FxUrl(text: string, l: Link): string
    requires InSpan(l, |text|)
  {
    "https://fxtwitter.com/" + User(text, l) + "/status/" + TweetId(text, l)
  }

  /** "http://" is not the start of "https://", and the two hosts differ in their first letter. */
  lemma WordsDiffer(text: string, i: nat)
    ensures StartsWith(text, i, Scheme(false)) ==> !StartsWith(text, i, Scheme(true))
    ensures StartsWith(text, i, HostWord(X)) ==> !StartsWith(text, i, HostWord(Twitter))
  {
    assert Scheme(false)[4] == ':' && Scheme(true)[4] == 's';
    assert HostWord(X)[0] == 'x' && HostWord(Twitter)[0] == 't';
  }

  /**
   * At most one match starts at a position: the scheme and the host are
   * fixed by the text, and each group, being followed by a character it
   * cannot contain, is as long as it can be.
   */
  lemma LinkUnique(text: string, l1: Link, l2: Link)
    requires LinkAt(text, l1) && LinkAt(text, l2) && l1.start == l2.start
    ensures l1 == l2
  {
    WordsDiffer(text, l1.start);
    assert l1.secure == l2.secure;
    WordsDiffer(text, l1.start + |Scheme(l1.secure)|);
    assert l1.host == l2.host;
    assert "/status/"[0] == '/';
    assert l1.userEnd < l2.userEnd ==> InClass(Word, text[l1.userEnd]);
    assert l2.userEnd < l1.userEnd ==> InClass(Word, text[l2.userEnd]);
  }

  /** The match of the pattern that starts exactly at `i`, if there is one. */
  ghost function LinkStartingAt(text: string, i: nat): (r: Option<Link>)
    ensures r.Some? ==> r.value.start == i && LinkAt(text, r.value)
    ensures r.None? <==> forall l :: LinkAt(text, l) ==> l.start != i
  {
    if exists l :: LinkAt(text, l) && l.start == i then
      Some(var l :| LinkAt(text, l) && l.start == i; l)
    else
      None
  }

  /** The length of the longest run of characters of `cls` that starts at `i`. */
  function Run(text: string, i: nat, cls: CharClass): nat
    decreases |text| - i
  {
    if i < |text| && InClass(cls, text[i]) then 1 + Run(text, i + 1, cls) else 0
  }

  /** A run of `n` characters of `cls` not followed by another is the run `Run` measures. */
  lemma {:induction false} RunIsExact(text: string, i: nat, n: nat, cls: CharClass)
    requires i + n <= |text| && AllIn(text, i, i + n, cls)
    requires i + n == |text| || !InClass(cls, text[i + n])
    ensures Run(text, i, cls) == n
    decreases n
  {
    if n > 0 {
      RunIsExact(text, i + 1, n - 1, cls);
    }
  }

  /** Whether the scheme at `i` can only be "https://": its fifth character is 's'. */
  function SecureAt(text: string, i: nat): bool {
    i + 4 < |text| && text[i + 4] == 's'
  }

  /** The host that can only be spelled at `j`: "twitter.com/" starts with 't', "x.com/" does not. */
  function HostFrom(text: string, j: nat): Host {
    if j < |text| && text[j] == 't' then Twitter else X
  }

  /**
   * The only link that can start at `i`: the scheme and host its first
   * characters select, then the user group and the id group as long as the
   * regex engine takes them. A `\w` run cannot take in the '/' that must
   * follow it, so the greedy choice is the only one that can succeed.
   */
  function Candidate(text: string, i: nat): Link {
    var secure := SecureAt(text, i);
    var host := HostFrom(text, i + |Scheme(secure)|);
    var k := i + |Scheme(secure)| + |HostWord(host)|;
    var u := k + Run(text, k, Word);
    Link(i, secure, host, u, u + 8 + Run(text, u + 8, Digit))
  }

  /** Wherever the text holds a match, the candidate at its start is that match. */
  lemma CandidateComplete(text: string, l: Link)
    requires LinkAt(text, l)
    ensures Candidate(text, l.start) == l
  {
    var i := l.start;
    assert Scheme(l.secure)[4] == if l.secure then 's' else ':';
    assert SecureAt(text, i) == l.secure;
    var j := i + |Scheme(l.secure)|;
    assert HostWord(l.host)[0] == if l.host == Twitter then 't' else 'x';
    assert HostFrom(text, j) == l.host;
    assert "/status/"[0] == '/';
    RunIsExact(text, UserStart(l), l.userEnd - UserStart(l), Word);
    RunIsExact(text, IdStart(l), l.end - IdStart(l), Digit);
  }

  /** `re.match` of the pattern at position `i`. */
  method MatchAt(text: string, i: nat) returns (r: Option<Link>)
    requires i <= |text|
    ensures r == LinkStartingAt(text, i) == MatchTable(text, |text| + 1)[i]
    ensures r.Some? ==> InSpan(r.value, |text|)
  {
    MatchTableAt(text, |text| + 1, i);
    var l := Candidate(text, i);
    if LinkAt(text, l) {
      r := Some(l);
      LinkUnique(text, l, LinkStartingAt(text, i).value);
    } else {
      r := None;
      if LinkStartingAt(text, i).Some? {
        CandidateComplete(text, LinkStartingAt(text, i).value);
      }
    }
  }

  /** The link starting at each of the first `n` positions of the text. */
  ghost function MatchTable(text: string, n: nat): (m: seq<Option<Link>>)
    ensures |m| == n
  {
    seq(n, (j: int) requires 0 <= j => LinkStartingAt(text, j))
  }

  lemma MatchTableAt(text: string, n: nat, j: nat)
    requires j < n
    ensures MatchTable(text, n)[j] == LinkStartingAt(text, j)
  {
  }

  /** Each entry of the table is a match starting at its own position and ending within the text. */
  predicate TableOk(m: seq<Option<Link>>) {
    |m| > 0 && forall j :: 0 <= j < |m| && m[j].Some? ==> m[j].value.start == j < m[j].value.end < |m|
  }

  /** The table of a whole text: one entry per position and one past the end. */
  lemma TextTableOk(text: string)
    ensures TableOk(MatchTable(text, |text| + 1))
  {
    var m := MatchTable(text, |text| + 1);
    forall j | 0 <= j < |m| && m[j].Some?
      ensures m[j].value.start == j < m[j].value.end < |m|
    {
      MatchTableAt(text, |text| + 1, j);
    }
  }

  /** No match starts at any position in `[a, b)`. */
  predicate NoMatchIn(m: seq<Option<Link>>, a: nat, b: nat)
    requires b <= |m|
  {
    forall j :: a <= j < b ==> m[j].None?
  }

  /**
   * `re.finditer` from position `i` over the table of matches: the leftmost
   * match, then the search resumes where it ended. The links come in text
   * order, do not overlap, and are entries of the table.
   */
  function Scan(m: seq<Option<Link>>, i: nat): (r: seq<Link>)
    requires TableOk(m) && i < |m|
    ensures forall k :: 0 <= k < |r| ==> i <= r[k].start < r[k].end < |m| && m[r[k].start] == Some(r[k])
    ensures forall k :: 0 <= k < |r| - 1 ==> r[k].end <= r[k + 1].start
    decreases |m| - i
  {
    if i == |m| - 1 then []
    else
      match m[i]
      case Some(l) => [l] + Scan(m, l.end)
      case None => Scan(m, i + 1)
  }

  /** The scan is empty exactly when the table holds no match from `i` on. */
  lemma {:induction false} ScanEmpty(m: seq<Option<Link>>, i: nat)
    requires TableOk(m) && i < |m|
    ensures Scan(m, i) == [] <==> NoMatchIn(m, i, |m| - 1)
    decreases |m| - i
  {
    if i < |m| - 1 && m[i].None? {
      ScanEmpty(m, i + 1);
    }
  }

  /**
   * What `Scan` leaves out: no match starts before the first link, between
   * two links or after the last.
   */
  lemma {:induction false} ScanLeftmost(m: seq<Option<Link>>, i: nat)
    requires TableOk(m) && i < |m|
    ensures var r := Scan(m, i);
      && (r != [] ==> NoMatchIn(m, i, r[0].start) && NoMatchIn(m, r[|r| - 1].end, |m| - 1))
      && (forall k :: 0 <= k < |r| - 1 ==> NoMatchIn(m, r[k].end, r[k + 1].start))
    decreases |m| - i
  {
    if i < |m| - 1 {
      match m[i]
      case Some(l) =>
        ScanLeftmost(m, l.end);
        var rest := Scan(m, l.end);
        assert Scan(m, i) == [l] + rest;
        if rest == [] {
          ScanEmpty(m, l.end);
        }
      case None =>
        ScanLeftmost(m, i + 1);
    }
  }

  /** One step of the scan: skip a position without a match, or take the match there. */
  lemma ScanStep(m: seq<Option<Link>>, i: nat)
    requires TableOk(m) && i < |m| - 1
    ensures m[i].None? ==> Scan(m, i) == Scan(m, i + 1)
    ensures m[i].Some? ==> Scan(m, i) == [m[i].value] + Scan(m, m[i].value.end)
  {
  }

  /** A table whose only match spans the whole text scans to that match alone. */
  lemma ScanWhole(m: seq<Option<Link>>, l: Link)
    requires TableOk(m) && |m| > 1 && m[0] == Some(l) && l.end == |m| - 1
    ensures Scan(m, 0) == [l]
  {
    assert Scan(m, 0) == [l] + Scan(m, l.end);
  }

  /** The matches `re.finditer` yields on `text`. */
  ghost function FindIter(text: string): seq<Link> {
    TextTableOk(text);
    Scan(MatchTable(text, |text| + 1), 0)
  }

  /** Every link `re.finditer` yields is a match, and they come in text order without overlap. */
  lemma FindIterSound(text: string)
    ensures var r := FindIter(text);
      && (forall k :: 0 <= k < |r| ==> LinkAt(text, r[k]))
      && (forall k :: 0 <= k < |r| - 1 ==> r[k].end <= r[k + 1].start)
  {
    var r := FindIter(text);
    forall k | 0 <= k < |r|
      ensures LinkAt(text, r[k])
    {
      MatchTableAt(text, |text| + 1, r[k].start);
    }
  }

  /** Every link lies within the first `n` characters. */
  predicate AllInSpan(links: seq<Link>, n: nat) {
    forall k :: 0 <= k < |links| ==> InSpan(links[k], n)
  }

  /** The rewritten URL of each link, in order. */
  function UrlsOf(text: string, links: seq<Link>): (r: seq<string>)
    requires AllInSpan(links, |text|)
    ensures |r| == |links| && forall k :: 0 <= k < |links| ==> r[k] == FxUrl(text, links[k])
    decreases |links|
  {
    if links == [] then [] else UrlsOf(text, links[..|links| - 1]) + [FxUrl(text, links[|links| - 1])]
  }

  /** The user group of each link, in order. */
  function UsersOf(text: string, links: seq<Link>): (r: seq<string>)
    requires AllInSpan(links, |text|)
    ensures |r| == |links| && forall k :: 0 <= k < |links| ==> r[k] == User(text, links[k])
    decreases |links|
  {
    if links == [] then [] else UsersOf(text, links[..|links| - 1]) + [User(text, links[|links| - 1])]
  }

  lemma AppendOne<T>(a: seq<T>, x: T, b: seq<T>)
    ensures a + ([x] + b) == (a + [x]) + b
  {
  }

  /**
   * `process_twitter_urls(text)`: one rewritten URL and one user name per
   * match, in text order.
   */
  method ProcessTwitterUrls(text: string) returns (urls: seq<string>, users: seq<string>)
    ensures var links := FindIter(text);
      && |urls| == |links| && |users| == |links|
      && forall k :: 0 <= k < |links| ==>
           InSpan(links[k], |text|) && users[k] == User(text, links[k]) && urls[k] == FxUrl(text, links[k])
  {
    urls, users := [], [];
    ghost var m := MatchTable(text, |text| + 1);
    TextTableOk(text);
    ghost var found: seq<Link> := [];
    var i := 0;
    while i < |text|
      invariant i <= |text|
      invariant found + Scan(m, i) == Scan(m, 0)
      invariant AllInSpan(found, |text|)
      invariant urls == UrlsOf(text, found) && users == UsersOf(text, found)
      decreases |text| - i
    {
      var next := MatchAt(text, i);
      ScanStep(m, i);
      match next
      case None =>
        i := i + 1;
      case Some(l) =>
        AppendOne(found, l, Scan(m, l.end));
        assert (found + [l])[..|found|] == found;
        urls := urls + [FxUrl(text, l)];
        users := users + [User(text, l)];
        found := found + [l];
        i := l.end;
    }
    assert Scan(m, i) == [];
  }

  /** A message yields no link exactly when no match of the pattern occurs in it anywhere. */
  lemma NoLinkNoUrls(text: string)
    ensures FindIter(text) == [] <==> forall l :: !LinkAt(text, l)
  {
    var m := MatchTable(text, |text| + 1);
    TextTableOk(text);
    ScanEmpty(m, 0);
    if FindIter(text) == [] {
      forall l | LinkAt(text, l)
        ensures false
      {
        MatchTableAt(text, |text| + 1, l.start);
      }
    } else {
      FindIterSound(text);
      assert LinkAt(text, FindIter(text)[0]);
    }
  }

  /** A message that is exactly one link yields that link alone. */
  lemma SingleLink(text: string, l: Link)
    requires LinkAt(text, l) && l.start == 0 && l.end == |text|
    ensures FindIter(text) == [l]
  {
    var m := MatchTable(text, |text| + 1);
    TextTableOk(text);
    MatchTableAt(text, |text| + 1, 0);
    LinkUnique(text, l, LinkStartingAt(text, 0).value);
    ScanWhole(m, l);
  }
}

=== FILE: wrappers.dfy ===
/** Optional values: Python's `None` versus a present value. */
module Wrappers {

  datatype Option<+T> = None | Some(value: T) {

    /** The value, or `default` when absent. */
    function GetOr(default: T): T {
      match this
      case Some(v) => v
      case None => default
    }
  }
}
